=== FILE: README.md ===
# Unmask: a Dafny model of the photo-privacy core

Unmask is a photo-sharing site. It blurs the faces of people who have not agreed to appear in a photo. The backend is Django and the frontend is React. This project models the parts that decide things. The imaging, the face recogniser, the database and the React rendering are replaced by values and parameters. The project proves what those decisions guarantee.

The model covers these parts:

- **The mask decision and the public image** (`Privacy`). The rule is per face. A face is shown when it is the uploader's own face, when its user shares their face publicly, or when its user has approved a consent request for the photo. Every other face is blurred, and a face no one was recognised in is blurred too. The public image is modelled as the list of boxes that get blurred. Bounding boxes are stored as `"left,top,right,bottom"` text (`BoundingBox`). Parsing that text gives back the box that was formatted. A box that is malformed or lies outside the image is skipped.
- **Photo processing** (`Privacy.ProcessPhotoForFaces`):
  - one face row is written per detection;
  - each recognised user other than the uploader is asked for consent, unless that user shares publicly;
  - each such user is asked once, at their first face;
  - then the public image is regenerated;
  - an exception after the unblurred copy is saved is only logged, and the copy stays public.
- **Unmasking after approval** (`Privacy.UnmaskApprovedFace`, `PhotoViews.PerformUpdate`).
- **The photo and consent-request endpoints** (`PhotoViews`):
  - the newest-first feed;
  - upload, which sets the uploader to the requesting user;
  - delete, which only the owner may do and which cascades to face rows and consent requests;
  - a user sees only their own consent requests.
- **Face encodings of users** (`FaceEncoding`). The largest detected face becomes the encoding. The recompute endpoint and its statistics are covered too.
- **The follow graph** (`Follows`):
  - follow and unfollow with their status codes;
  - uniqueness of the (follower, following) pair;
  - newest-first order;
  - follower lists and counts.
- **Profile endpoint and per-user recompute** (`UserViews`).
- **Frontend helpers**:
  - media URL normalisation and avatar fallbacks (`MediaUrls`);
  - the header's scroll rule and user search (`Header`);
  - the followers list (`FollowersModal`);
  - the photo view's age wording, delete menu and callbacks (`PhotoModal`);
  - the profile header (`ProfileHeader`);
  - the photo grid (`PhotoGrid`);
  - the delete dialog (`DeleteModal`).

The database is a value: `PhotoDb` holds the photo, face and consent-request tables, and user and follow tables are sequences. Endpoints return their HTTP status code with the new state. The face detector's output, the clock, the step at which processing raises, and `encodeURIComponent` are parameters.

## Model

| member | source | states |
|---|---|---|
| UserModels.NewUser | backend/users/models.py:56-74 | A new user starts with encoding status PENDING and sharing mode REQUIRE_CONSENT. They have no valid encoding and no picture. |
| UserModels.Lookup | backend/users/views.py:81 | The primary-key lookup finds a user with that id, or reports that none has it. |
| UserModels.HasValidFaceEncoding | backend/users/models.py:97-99 | A user has a valid encoding iff their status is SUCCESS and an encoding is stored. |
| FaceEncoding.LargestFaceIndex | backend/users/services.py:69-75 | The face sorted first has maximal box area. Among equal areas it is the earliest, because the sort is stable. |
| FaceEncoding.ExtractFaceEncoding | backend/users/services.py:18-88 | Only the status and encoding change. The result is true iff the status is SUCCESS, and iff the user then has a valid encoding. No picture gives NO_FACE. A missing file, an unreadable file or an exception gives ERROR with the encoding kept. No face gives NO_FACE with the encoding cleared. Otherwise the encoding is that of a largest face. |
| FaceEncoding.UsersWithEncodings | backend/users/services.py:91-102 | It returns exactly the users with status SUCCESS and a stored encoding. |
| FaceEncoding.FaceEncodingsDict | backend/users/services.py:105-132 | The encodings and users lists are parallel. Every listed user has a valid encoding that converts to the listed one. Every such user whose conversion succeeds is listed. It is empty when no user has one. Over a table with unique keys, each user is listed at most once. |
| FaceEncoding.ConvertEach | backend/users/services.py:118-130 | The conversion loop keeps exactly the users whose conversion succeeds, in table order, each paired with its converted encoding. |
| UserModels.FilterKeepsUniqueIds | backend/users/services.py:113 | A queryset over the user table keeps primary keys unique. |
| FaceEncoding.BucketsPartition | backend/users/services.py:154-162 | Every processed user lands in exactly one of success, no-face and error. |
| FaceEncoding.RecomputeAllFaceEncodings | backend/users/services.py:135-165 | This is the intended selection (see Findings). Exactly the users with a non-empty picture are re-extracted, and every other user is untouched. The total is their number. The three counters sum to the total, and each counts its own outcome. |
| FaceEncoding.RecomputeAllAsWritten | backend/users/services.py:145-165 | With the selection as written, every user except those with an empty path is re-extracted, including users whose picture is NULL. The total and the NO_FACE count range over that selection. |
| FaceEncoding.SelectionsDifferOnNull | backend/users/services.py:145 | The written and the intended selections differ exactly on users whose picture is NULL. Every user with a picture is in both. |
| FaceEncoding.NullPictureCountedAsWritten | backend/users/services.py:145 | A user without a picture is selected as written and counted once as NO_FACE. The intended selection skips them. |
| FaceEncoding.TallyBuckets | backend/users/services.py:154-162 | The counting loop adds one to exactly one counter per user. Each counter ends equal to the number of users in its bucket, and the three sum to the total. |
| FaceEncoding.CountBucketSnoc | backend/users/services.py:154-162 | One more user raises exactly the counter of its own outcome by one. |
| Follows.Edges | backend/users/models.py:7-33 | The relation holds exactly the (follower, following) pairs of the table's rows. |
| Follows.EdgesWithout | backend/users/views.py:112-115 | Deleting the rows of one pair removes exactly that pair from the relation. |
| Follows.IsFollowing | backend/users/views.py:140-143 | The follow status is true iff the pair is in the relation. |
| Follows.FollowAction | backend/users/views.py:74-127 | An unknown target gives 404 and a self-follow gives 400, both with no change. POST gives 200 if the pair exists, else 201 with the pair added. DELETE gives 204 with the pair removed, else 404 with no change. Uniqueness and newest-first order are kept. |
| Follows.PrependKeepsWellFormed | backend/users/models.py:24-30 | A new row for a pair not yet present keeps pairs unique and rows newest first. |
| Follows.FilterKeepsWellFormed | backend/users/models.py:24-30 | Deleting rows keeps pairs unique and rows newest first. |
| Follows.FilterKeepsUnique | backend/users/models.py:24 | Deleting rows never creates a duplicate pair. |
| Follows.FollowThenUnfollow | backend/users/views.py:91-122 | From not following, a follow (201) then an unfollow (204) restores the table exactly. |
| Follows.FollowIdempotent | backend/users/views.py:93-108 | A repeated follow changes nothing and answers 200. |
| Follows.RelatedUsersFollowRows | backend/users/views.py:158-206 | Each list holds the other ends of exactly the rows its count counts, in the same order. |
| Follows.RelatedRowsNewestFirst | backend/users/views.py:178 | Follower and following lists come out newest row first. |
| Follows.RelatedUsers | backend/users/views.py:178-181 | The list holds the other end of each of the user's rows, in table order. |
| Follows.NeighboursAreEdges | backend/users/views.py:178-181 | A user is a neighbour on one side iff the matching pair is in the follow relation. |
| Follows.ListIsNeighbours | backend/users/views.py:178-181 | The list the endpoint returns holds exactly the neighbours. With the previous row, the users on a list are exactly the followers (or followees) in the relation. |
| Follows.CountIsDegree | backend/users/views.py:160-161 | With unique pairs, each count is the number of distinct followers (or followees). |
| Follows.Counts | backend/users/views.py:148-166 | Each count equals the length of the matching list. |
| Text.ParseIntToString | backend/photos/services.py:81 | `int(float(c))` reads back every integer that was written as decimal text. |
| Text.SplitJoin | backend/photos/services.py:81 | Splitting comma-joined parts that contain no comma gives back the parts. |
| Text.TrimEmptyIffBlank | frontend/src/components/shell/Header.jsx:44 | `trim()` gives the empty string iff every character is JavaScript whitespace. |
| Text.ContainsAt | frontend/src/components/shell/Header.jsx:52-56 | `includes` holds iff the needle sits at some position. |
| BoundingBox.Format | backend/photos/services.py:179 | The stored text always has four comma-separated parts. |
| BoundingBox.Parse | backend/photos/services.py:81-82 | Parsing succeeds iff there are exactly four comma-separated parts and each is a decimal integer. The parts are then left, top, right and bottom, in that order. Anything else is the error path. |
| BoundingBox.ParseFormat | backend/photos/services.py:81-82 | Parsing the stored text of a box gives back that box. |
| BoundingBox.BlurredBoxes | backend/photos/services.py:77-98 | Every blurred box is inside the image and parsed from one of the strings. Every string that parses to an in-image box is blurred. |
| BoundingBox.BlurredBoxesConcat | backend/photos/services.py:78-98 | Each string is handled on its own, so blurring a concatenation is blurring each part. |
| BoundingBox.MalformedSkipped | backend/photos/services.py:97-98 | A malformed box is skipped without affecting the boxes around it. |
| PhotoModels.FindPhoto | backend/photos/services.py:128-132 | It finds a photo with the id, or reports that none exists. |
| PhotoModels.FindRequest | backend/photos/services.py:239 | It finds a request with the id, or reports that none exists. |
| PhotoModels.AppendFreshRequests | backend/photos/services.py:211-215 | New requests numbered up from the counter, with the counter moved past them, keep request ids unique and below the counter. |
| Seqs.FindSameKeys | backend/photos/views.py:119 | When a write keeps every row's key, a lookup finds a row before the write iff it finds one after, at the same position. |
| PhotoModels.SetPublicImageLookup | backend/photos/services.py:106-110 | After the save, the photo is found with the new public image. Every other photo is found as before, and a missing photo stays missing. |
| PhotoModels.FacesOf | backend/photos/services.py:40 | It returns exactly the face rows of that photo. |
| Privacy.ApprovedUsers | backend/photos/services.py:47-49 | It returns exactly the users with an APPROVED request for this photo. |
| Privacy.Unmasked | backend/photos/services.py:53-68 | A face stays visible iff it is matched to the uploader, to a PUBLIC user or to an approving user. An unmatched face is never visible. |
| Privacy.MaskedFaces | backend/photos/services.py:53-73 | A face is masked iff it is not unmasked. An unrecognised face is always masked. The uploader and public users are never masked. Any other user is masked iff they have not approved. |
| Privacy.BlurList | backend/photos/services.py:77-98 | The blurred boxes are in the image and come from the given faces. Every parseable in-image face box is blurred. |
| Privacy.Regenerate | backend/photos/services.py:22-117 | A missing or unreadable original gives no image. Otherwise only masked faces of this photo are blurred, every masked face with a valid in-image box is blurred, and nothing lies outside the image. |
| Privacy.NothingBlurredWhenAllUnmasked | backend/photos/services.py:43-44 | When every face is unmasked the public image has no blur. |
| Privacy.ApprovalUnmasks | backend/photos/services.py:66-68 | An APPROVED request for the photo unmasks that user's faces in it. |
| Privacy.NeedsConsent | backend/photos/services.py:205-208 | A detection needs consent iff it is matched to a user who is not the uploader and not PUBLIC. |
| Privacy.AskedExactlyWhenMasked | backend/photos/services.py:205-208 | When the matched record is the one in the users table, a matched user is asked for consent iff their face is blurred before any approval. |
| Privacy.AskedUsers | backend/photos/services.py:173 | The asked set is exactly the users of the planned detections. |
| Privacy.AskedUsersSnoc | backend/photos/services.py:216 | Planning one more detection adds exactly its user to the asked set. |
| Privacy.FirstNeeding | backend/photos/services.py:205-216 | It gives the index of the first detection that needs this user's consent, or none if there is none. |
| Privacy.FirstNeedingPrefix | backend/photos/services.py:175-216 | A first occurrence found in a prefix stays first in the whole list. |
| Privacy.UploaderNeverAsked | backend/photos/services.py:205-208 | Planned requests never ask the uploader about their own photo. |
| Privacy.FirstRequestsSound | backend/photos/services.py:206-216 | Planned detections are detections that need consent, with pairwise distinct users. |
| Privacy.FirstRequestsComplete | backend/photos/services.py:206-216 | Every user who needs to consent is asked. |
| Privacy.FirstRequestsFirst | backend/photos/services.py:210-216 | Each user is asked about their first face in detection order. |
| Privacy.PlanConsentRequests | backend/photos/services.py:173-217 | The loop asks only users who need to consent. It asks each such user exactly once, at their first face. It misses none. |
| Privacy.RequestRows | backend/photos/services.py:211-215 | There is one PENDING request per planned detection, and the ids run up from the counter. The requested user is the matched one, and the stored box reads back as the detection's box. |
| Privacy.ConsentRows | backend/photos/services.py:205-217 | The new requests are for this photo and PENDING, with distinct users and ids running up from the counter. Each holds the box of that user's first face, and every user who needs to consent has one. |
| Privacy.FaceRows | backend/photos/services.py:175-203 | There is one face row per detection, in order, with the matched user. Its box reads back as the detection's box. |
| Privacy.ProcessPhotoForFaces | backend/photos/services.py:120-230 | An unknown photo or missing file changes nothing. A failing copy changes nothing. Otherwise the public image is first an unblurred copy of the original. A failure while loading encodings or detecting, an unreadable image, or no faces stops there. A failure at detection k keeps the rows of the first k detections and the unblurred copy. Otherwise all face rows and consent requests are appended, earlier rows are kept, and the public image is regenerated. Request ids stay unique and fresh in every case. Whatever the outcome, no other photo changes, this photo changes only its public image, and face rows and requests are only appended. |
| Privacy.UnmaskApprovedFace | backend/photos/services.py:233-252 | An unknown or non-APPROVED request changes nothing. An APPROVED one changes only the public image of its own photo, to the regenerated one. |
| PhotoViews.ListPhotos | backend/photos/views.py:20-27 | The feed holds every photo exactly once, newest first. |
| PhotoViews.PerformCreate | backend/photos/views.py:29-44 | The saved photo has the requester as uploader and the given original. Consent is planned against the requester, who is never asked about their own upload. A processing failure after the copy leaves the upload public and unblurred. Whatever the outcome, exactly one photo row is appended, and every stored photo, face row and consent request is kept. Request ids stay valid. |
| Seqs.FindAppended | backend/photos/views.py:41 | A row saved under a fresh key is the one found under that key. |
| PhotoViews.FindPhotoKeepsOriginal | backend/photos/views.py:41-44 | Processing keeps the photo's uploader, time and original. |
| Seqs.FindFirst | backend/photos/views.py:51 | A lookup by key returns the first row with that key. |
| PhotoViews.DeletePhoto | backend/photos/views.py:81-86 | The photo is removed, together with its face rows and consent requests. Every other row is kept. |
| PhotoViews.Destroy | backend/photos/views.py:46-93 | An unknown photo gives 404 and a non-owner gives 403, both with no change. The owner gets 204: the photo is gone, and so are exactly its face rows and consent requests. Every other photo, face row and request is kept. Request ids stay valid. |
| PhotoViews.ConsentQueryset | backend/photos/views.py:103-111 | It returns the requester's own requests, newest first, as a permutation of those stored: none missing, none added and none repeated. |
| PhotoViews.SetStatusLookup | backend/photos/views.py:119 | After the save, the request is found with the new status. Every other request is found as before, and a missing one stays missing. |
| PhotoViews.SetStatusKeepsValid | backend/photos/views.py:119 | Saving a status keeps request ids unique and fresh. |
| PhotoViews.PerformUpdate | backend/photos/views.py:113-124 | A request outside the requester's own queryset gives 404 with no change, so another user's request is never touched. Otherwise the status is saved, and unmasking runs iff the saved status is APPROVED. No photo changes unless unmasking runs, and then only the public image of the request's own photo can change. |
| PhotoViews.PerformUpdateKeepsValid | backend/photos/views.py:113-124 | An update keeps request ids unique and fresh. |
| PhotoViews.ApprovalUnblursRequester | backend/photos/views.py:113-124 | Approving one's own request makes one an approved user of the photo. If the photo exists and its original can be opened, its public image is regenerated from the updated requests, and none of the requester's faces in it is blurred. |
| UserViews.FindByUsername | backend/users/views.py:53 | It finds a user with that username, or reports that none has it. |
| UserViews.GetProfile | backend/users/views.py:41-71 | An unknown username gives 404. Otherwise it returns that user and their photos, newest first, as a permutation of their stored uploads: none missing, none added and none repeated. |
| UserViews.SaveUserLookup | backend/users/views.py:226 | After the save, the user is found under their id when they existed. A table without them is unchanged, and every other id finds what it found before. |
| UserViews.RecomputeEncoding | backend/users/views.py:208-237 | An unknown user gives 404, and anyone but the user or staff gets 403, both with no change. Otherwise it extracts, answering 200 iff the user ends with a valid encoding and 400 if not. |
| UserViews.RecomputeTouchesOnlyTarget | backend/users/views.py:226 | Only the target user's row changes, and only its encoding fields. |
| MediaUrls.ImageUrl | frontend/src/components/profile/FollowersModal.jsx:44-48 | An empty path gives null. Otherwise the result is an `http…` URL ending with the path, and it is the path unchanged iff the path starts with `http`. |
| MediaUrls.ImageUrlIdempotent | frontend/src/components/profile/PhotoModal.jsx:16-20 | Normalising a normalised URL changes nothing. |
| MediaUrls.ImageUrlRelative | frontend/src/components/profile/PhotoGrid.jsx:12-16 | A relative path becomes the media origin followed by exactly that path. |
| MediaUrls.ImageUrlInjective | frontend/src/components/profile/PhotoGrid.jsx:12-16 | Two paths of the same kind give the same source only when they are the same path. |
| MediaUrls.UiAvatarInjective | frontend/src/components/profile/ProfileHeader.jsx:29-31 | Two generated avatars with the same options are equal only for the same name. |
| MediaUrls.AvatarOrReadsBack | frontend/src/components/profile/ProfileHeader.jsx:26-32 | From an avatar source one can read back where it came from. A relative picture never looks like a generated avatar. With no picture, the name and options follow the service prefix. With a picture, the source is the picture or the media origin followed by it. |
| MediaUrls.PreferredImage | frontend/src/components/profile/PhotoGrid.jsx:38 | The public image is shown when there is one, else the original. |
| MediaUrls.OriginalShownOnlyWithoutPublic | frontend/src/components/profile/PhotoModal.jsx:79 | The original is shown only when the photo has no public image. |
| Header.ControlNavbar | frontend/src/components/shell/Header.jsx:22-35 | Below 10 the header shows. It hides iff the page moved down past 100, and hiding also unfocuses the search. The position is remembered. |
| Header.ScrollInvariant | frontend/src/components/shell/Header.jsx:22-39 | After any scroll run, a hidden header has no focused search and the last move went past 100. The remembered position is the last one. |
| Header.Matches | frontend/src/components/shell/Header.jsx:52-56 | A user matches iff the lower-cased query occurs in the lower-cased username, or in a first or last name that is set. |
| Header.MatchesIgnoresCase | frontend/src/components/shell/Header.jsx:52-56 | Matching ignores the case of the query. |
| Header.MatchesEmpty | frontend/src/components/shell/Header.jsx:52-53 | Every user matches the empty query. |
| Header.SearchResults | frontend/src/components/shell/Header.jsx:52-57 | There are at most 10 results, all matching and in server order. Below the cap, none is missing. |
| Header.SearchUsers | frontend/src/components/shell/Header.jsx:43-64 | There is a fetch iff the query is not blank. A blank query clears the results. A failure gives no results. After a fetch the search is no longer in progress. |
| Header.ResetSearchesNothing | frontend/src/components/shell/Header.jsx:70-80 | After a clear or a select, the next search run fetches nothing and shows no results. |
| Header.ResultAvatar | frontend/src/components/shell/Header.jsx:82-88 | The avatar is the normalised picture, else a 40-pixel generated avatar of the encoded username. Which of the two it is, and the username, can be read back from it. |
| Header.FullName | frontend/src/components/shell/Header.jsx:173 | The full name is the set names, joined by one space. It is empty iff neither name is set. |
| FollowersModal.Endpoint | frontend/src/components/profile/FollowersModal.jsx:22-24 | The followers endpoint is chosen iff the type is `followers`. Any other type gives the following endpoint. |
| FollowersModal.EndpointInjective | frontend/src/components/profile/FollowersModal.jsx:22-24 | Two endpoints are equal only for the same user id and the same choice of list. |
| FollowersModal.ReloadShows | frontend/src/components/profile/FollowersModal.jsx:19-37 | After a successful load the rows shown are the new data narrowed by the unchanged query. After a failure the rows shown stay as they were. Loading ends either way. |
| FollowersModal.FilterUsers | frontend/src/components/profile/FollowersModal.jsx:35-37 | It keeps exactly the users whose lower-cased username contains the lower-cased query. |
| FollowersModal.EmptyQueryKeepsAll | frontend/src/components/profile/FollowersModal.jsx:35-37 | An empty query shows the whole list in order. |
| FollowersModal.FilterUsersKeepsOrder | frontend/src/components/profile/FollowersModal.jsx:35-37 | The filter keeps the loaded order. A single user shows iff it matches, and filtering a list is filtering its parts and joining the results in the same order. |
| FollowersModal.FilterUsersIdempotent | frontend/src/components/profile/FollowersModal.jsx:35-37 | Filtering twice is filtering once. |
| FollowersModal.FullNameLineAgreesWithHeader | frontend/src/components/profile/FollowersModal.jsx:113-117 | A name line shows iff both names are set, and then it equals the header's full name. With only one name set, the header shows that name and the list shows no line. |
| FollowersModal.RowAvatar | frontend/src/components/profile/FollowersModal.jsx:101 | The avatar is the normalised picture, else a 48-pixel generated avatar of the raw username. Which of the two it is, and the username, can be read back from it. |
| FollowersModal.EmptyWithoutQuery | frontend/src/components/profile/FollowersModal.jsx:122-126 | An empty list with no query means nothing was loaded, and the message then says `No followers yet`. |
| PhotoModal.UploaderAvatar | frontend/src/components/profile/PhotoModal.jsx:22-28 | The avatar is the uploader's normalised picture. Otherwise it is a 48-pixel bold generated avatar of the encoded username, or of "User" when there is no username. Which of the two it is, and the name, can be read back from it. |
| PhotoModal.ElapsedSeconds | frontend/src/components/profile/PhotoModal.jsx:56-58 | Elapsed seconds are the floor of the milliseconds divided by 1000. |
| PhotoModal.FormatDate | frontend/src/components/profile/PhotoModal.jsx:55-65 | The buckets are just now below 60 s, then minutes, hours and days, then a date. Each count is the whole number of units elapsed and stays within its bucket. |
| PhotoModal.FormatDateMonotonic | frontend/src/components/profile/PhotoModal.jsx:60-63 | An older photo never reads as newer. |
| PhotoModal.AgeTextInjective | frontend/src/components/profile/PhotoModal.jsx:60-63 | Two relative ages are worded the same only when they are the same bucket with the same count. |
| PhotoModal.Step | frontend/src/components/profile/PhotoModal.jsx:104-131 | The delete dialog opens only from the open menu on one's own photo. |
| PhotoModal.OthersCannotDelete | frontend/src/components/profile/PhotoModal.jsx:104-131 | On someone else's photo no sequence of clicks opens the menu or the dialog. |
| PhotoModal.OwnerReachesDelete | frontend/src/components/profile/PhotoModal.jsx:104-127 | On one's own photo the dialog is two clicks away. |
| PhotoModal.DeleteNotifiesParent | frontend/src/components/profile/PhotoModal.jsx:50-53 | With the confirm callback bound to the success handler, a successful delete tells the parent the photo id and then closes the view. A failed one tells the parent nothing. |
| PhotoModal.ParentNeverNotifiedAsWired | frontend/src/components/profile/PhotoModal.jsx:258-262 | As the dialog is mounted, the parent is never told anything, whatever the server answers. |
| ProfileHeader.ProfileAvatar | frontend/src/components/profile/ProfileHeader.jsx:26-32 | The avatar is the normalised picture. Otherwise it is a 150-pixel bold generated avatar of the encoded username, or of "User" when there is no username. Which of the two it is, and the name, can be read back from it. |
| ProfileHeader.ActionsFor | frontend/src/components/profile/ProfileHeader.jsx:65-101 | Edit and settings show iff the profile is one's own. Otherwise the label is "Following" iff following, else "Follow". |
| ProfileHeader.FollowButtonTracksServer | frontend/src/components/profile/ProfileHeader.jsx:82-100 | Given the server's follow status, the toggle reads "Following" after any follow of another existing user and "Follow" after any unfollow. |
| ProfileHeader.Render | frontend/src/components/profile/ProfileHeader.jsx:107-137 | The counts are shown as given. The bio shows iff it is set. The follow toggle shows iff the profile is not one's own. |
| PhotoGrid.Render | frontend/src/components/profile/PhotoGrid.jsx:18-44 | The empty state shows iff there are no photos, with text that depends only on whose profile it is. Otherwise there is one tile per photo, in order. |
| PhotoGrid.KeysDistinct | frontend/src/components/profile/PhotoGrid.jsx:43 | Distinct photo ids give distinct tile keys. |
| PhotoGrid.ClickedTileOpensItsPhoto | frontend/src/components/profile/PhotoGrid.jsx:45-90 | Clicking a tile opens the view on that tile's photo, which shows the tile's image. Closing the view leaves no photo selected. |
| DeleteModal.Finish | frontend/src/components/profile/DeleteModal.jsx:16-32 | On success the dialog confirms with the id and then closes. On failure there is no callback, the error is the server's message or the default text, and the buttons come back. |
| DeleteModal.HandleDelete | frontend/src/components/profile/DeleteModal.jsx:12-33 | The confirm callback runs iff the delete succeeded, where a rejection with 204 counts as success. |
| DeleteModal.NoContentIsSuccess | frontend/src/components/profile/DeleteModal.jsx:25-27 | A 204 rejection is handled exactly like success. |
| DeleteModal.FailureAllowsRetry | frontend/src/components/profile/DeleteModal.jsx:28-31 | After a failure the buttons are enabled and an error shows. A retry clears the error. |
| DeleteModal.HandleDeleteAsWired | frontend/src/components/profile/DeleteModal.jsx:12-33 | With the confirm callback missing, no callback ever runs. A resolved delete shows the default error with the buttons enabled. A 204 rejection leaves the dialog busy. Any other rejection is handled as written. |
| DeleteModal.DeletedPhotoReportedAsFailure | frontend/src/components/profile/DeleteModal.jsx:16-20 | On a delete the server carried out, the dialog as mounted reports failure and makes no call. Wired as intended, it confirms the id and closes. |

## Left out

- Face detection and recognition (InsightFace, the cosine-similarity match with threshold 0.5, `astype(int)` on the boxes). A detection is given as a box plus the matched user or none. A user's picture is given as an `ImageProbe`.
- Imaging (OpenCV, PIL, the Gaussian blur, JPEG encoding, file copies). A public image is "none", "copy of the original" or "the original with these boxes blurred". Image files are `Missing`, `Corrupt` or an image of a given size.
- BoundingBox.BlurredBoxes: a box with `right < left` or `bottom < top` passes the bounds check. PIL's crop then raises and the loop skips that box. The model keeps such a box in the blurred list, because PIL's behaviour is outside the model.
- BoundingBox.Parse: it accepts an optional sign, digits and an optional fraction. Other `float()` forms such as exponents, surrounding blanks, underscores, `inf` and `nan` count as malformed. Precision loss past 2^53 is not modelled.
- Privacy.Regenerate: an exception while regenerating, other than a missing or unreadable original, is only logged in the source. The model has no such case.
- Logging, timing and response bodies. Endpoints return only their status code and the new state.
- Authentication. The requester is a parameter.
- backend/photos/models.py is not part of this model. Only the fields the services and views use are modelled. Of the consent statuses only APPROVED is compared against in the code. PENDING as the default and DENIED are assumed.
- The serializers. A consent-request update is modelled as changing only the status. Writes to other fields are not modelled.
- The profile endpoint's fallback when no photo serializer exists: that path would raise.
- Follows.Counts: it describes `follow_counts` for an existing user. The 404 for an unknown user on `follow_status`, `follow_counts`, `followers` and `following` comes from the same object lookup as in `FollowAction` and is not repeated.
- Destroy's deletion of the image files and the cascade to likes and comments. Those tables are not modelled.
- The photo view's like count (`{photo.likes_count || 0} likes`, PhotoModal.jsx:218) is the same `ApiTypes.CountOrZero` fallback the grid tile uses at PhotoGrid.jsx:65, stated by `PhotoGrid.TileOf`. The view adds only the word "likes", so it has no member of its own.
- Text.Lower: it folds ASCII letters only, not all of Unicode.
- Dates: PhotoModal.FormatDate works on whole seconds elapsed. Parsing dates, invalid dates and `toLocaleDateString` are not modelled.
- React rendering, CSS, routing, the clipboard, event listeners and the search debounce timer. Stale search responses are not modelled either.
- The profile page controller and layout (`frontend/src/app/profile/[username]/page.jsx` and `layout.jsx`), and `backend/warmup_gpu.py`: they have no logic here worth proving.
- Privacy.ProcessPhotoForFaces: a failure is placed before the copy, while loading encodings or detecting, or at the start of one detection's writes. A failure between a detection's face row and its consent request is not distinguished. The model then keeps neither row of that detection, while the source keeps the face row.
- Privacy.ProcessPhotoForFaces: the detector's matched user record is a parameter. That it is the users-table row for the same id is a requires of `Privacy.AskedExactlyWhenMasked`, not of processing.
- Which step of processing raises is a parameter (`Privacy.Fault`), because it depends on the file system, the database and the detector.
- The mismatch between DeleteModal's `onConfirm` and the photo view's `onDeleteSuccess` is listed under Findings. The photo view is modelled with the wiring as intended, and the as-mounted dialog separately.

## Findings

| source | as written | input that shows it | evidently intended | confidence | as-written member | corrected member |
|---|---|---|---|---|---|---|
| backend/users/services.py:145 | `exclude(profile_pic__in=['', None])`: SQL `IN` never matches NULL, and a negated lookup on a nullable column keeps NULL rows, so users whose picture is NULL are still selected | one user who never uploaded a picture (NULL): they are re-extracted, marked NO_FACE and counted in the total | skip every user without a picture, empty or NULL | medium, not executed | FaceEncoding.RecomputeAllAsWritten, FaceEncoding.NullPictureCountedAsWritten | FaceEncoding.RecomputeAllFaceEncodings |
| frontend/src/components/profile/PhotoModal.jsx:258-262 | the photo view passes `onDeleteSuccess`, but DeleteModal.jsx:19 calls `onConfirm(photoId)`, which is undefined | a delete the server answers with 204: the TypeError is caught, "Failed to delete. Please try again." shows, and neither the parent nor `onClose` is called | the success handler runs, so the parent drops the photo and the view closes | high, not executed | DeleteModal.HandleDeleteAsWired, DeleteModal.DeletedPhotoReportedAsFailure, PhotoModal.ParentNeverNotifiedAsWired | PhotoModal.DeleteNotifiesParent |

=== FILE: api_types.dfy ===
/**
 * The JSON shapes the frontend components read, and the outcome of an
 * `api` call. A text field that may be `null`, `undefined` or `""` is a
 * plain string with `""` standing for all three: every use in the
 * components only checks it for truthiness.
 */
module ApiTypes {
  import opened Wrappers

  datatype ApiUser = ApiUser(
    id: nat,
    username: string,
    firstName: string,
    lastName: string,
    profilePic: string,
    bio: string
  )

  datatype ApiPhoto = ApiPhoto(
    id: nat,
    uploader: Option<ApiUser>,
    publicImage: string,
    originalImage: string,
    likesCount: Option<int>,
    commentsCount: Option<int>,
    requiresConsent: bool
  )

  /** An awaited `api.get`/`api.delete`: the response body, or the rejection. */
  datatype Fetch<T> = Fetched(data: T) | Failed

  /** JavaScript's `a || b` on strings: `a` unless it is falsy. */
  function OrElse(a: string, b: string): (r: string)
    ensures a != "" ==> r == a
    ensures a == "" ==> r == b
  {
    if a != "" then a else b
  }

  /** `count || 0`: a missing count (and a zero) displays as 0. */
  function CountOrZero(count: Option<int>): (r: int)
    ensures count.Some? ==> r == count.value
    ensures count.None? ==> r == 0
  {
    count.GetOr(0)
  }
}

=== FILE: bounding_box.dfy ===
/**
 * Face bounding boxes as photo processing stores them: the text
 * `"left,top,right,bottom"` in a database column, written when a face is
 * detected and read back when the public image is regenerated
 * (backend/photos/services.py).
 */
module BoundingBox {
  import opened Wrappers
  import opened Text

  datatype Box = Box(left: int, top: int, right: int, bottom: int)

  /** The f-string `f"{box[0]},{box[1]},{box[2]},{box[3]}"`. */
  function Format(b: Box): (s: string)
    ensures |Split(s, ',')| == 4
  {
    var parts := [IntToString(b.left), IntToString(b.top), IntToString(b.right), IntToString(b.bottom)];
    SplitJoin(parts, ',');
    Join(parts, ',')
  }

  /**
   * `[int(float(c)) for c in s.split(',')]` unpacked into four names; `None`
   * for the `ValueError` that a bad part or a wrong number of parts raises.
   */
  function Parse(s: string): (r: Option<Box>)
    // it succeeds exactly when there are four comma-separated parts and each is a decimal integer
    ensures r.Some? <==> |Split(s, ',')| == 4 && forall k :: 0 <= k < 4 ==> ParseDecimal(Split(s, ',')[k]).Some?
    // and then the parts are left, top, right, bottom in that order
    ensures r.Some? ==>
              && Some(r.value.left) == ParseDecimal(Split(s, ',')[0])
              && Some(r.value.top) == ParseDecimal(Split(s, ',')[1])
              && Some(r.value.right) == ParseDecimal(Split(s, ',')[2])
              && Some(r.value.bottom) == ParseDecimal(Split(s, ',')[3])
  {
    var parts := Split(s, ',');
    if |parts| != 4 then None
    else
      match (ParseDecimal(parts[0]), ParseDecimal(parts[1]), ParseDecimal(parts[2]), ParseDecimal(parts[3]))
      case (Some(l), Some(t), Some(r), Some(b)) => Some(Box(l, t, r, b))
      case _ => None
  }

  /** Every box the detector stores reads back as the same four integers. */
  lemma ParseFormat(b: Box)
    ensures Parse(Format(b)) == Some(b)
  {
    var parts := [IntToString(b.left), IntToString(b.top), IntToString(b.right), IntToString(b.bottom)];
    SplitJoin(parts, ',');
    ParseIntToString(b.left);
    ParseIntToString(b.top);
    ParseIntToString(b.right);
    ParseIntToString(b.bottom);
  }

  /** The bounds check before blurring: nothing left of or above the origin, nothing past the image size. */
  predicate InImage(b: Box, width: int, height: int) {
    !(b.left < 0 || b.top < 0 || b.right > width || b.bottom > height)
  }

  /**
   * The boxes the blur loop actually crops, blurs and pastes, in order: a
   * string that does not parse, or a box outside the image, is skipped and
   * the loop goes on with the next one.
   */
  function BlurredBoxes(boxes: seq<string>, width: int, height: int): (r: seq<Box>)
    ensures |r| <= |boxes|
    ensures forall k :: 0 <= k < |r| ==> InImage(r[k], width, height)
    ensures forall k :: 0 <= k < |r| ==> exists i :: 0 <= i < |boxes| && Parse(boxes[i]) == Some(r[k])
    ensures forall i :: 0 <= i < |boxes| && Parse(boxes[i]).Some? && InImage(Parse(boxes[i]).value, width, height)
              ==> Parse(boxes[i]).value in r
    decreases |boxes|
  {
    if |boxes| == 0 then []
    else
      var rest := BlurredBoxes(boxes[1..], width, height);
      assert forall i :: 1 <= i < |boxes| ==> boxes[i] == boxes[1..][i - 1];
      match Parse(boxes[0])
      case Some(b) => if InImage(b, width, height) then [b] + rest else rest
      case None => rest
  }

  /** The loop treats each string on its own: blurring a concatenation is blurring each part. */
  lemma {:induction false} BlurredBoxesConcat(a: seq<string>, b: seq<string>, width: int, height: int)
    ensures BlurredBoxes(a + b, width, height) == BlurredBoxes(a, width, height) + BlurredBoxes(b, width, height)
    decreases |a|
  {
    if |a| == 0 {
      assert a + b == b;
    } else {
      assert (a + b)[1..] == a[1..] + b;
      BlurredBoxesConcat(a[1..], b, width, height);
    }
  }

  /** A malformed box string is skipped without disturbing the boxes around it. */
  lemma MalformedSkipped(a: seq<string>, bad: string, b: seq<string>, width: int, height: int)
    requires Parse(bad).None?
    ensures BlurredBoxes(a + [bad] + b, width, height) == BlurredBoxes(a + b, width, height)
  {
    assert BlurredBoxes([bad], width, height) == [] by {
      assert [bad][1..] == [];
    }
    BlurredBoxesConcat(a + [bad], b, width, height);
    BlurredBoxesConcat(a, [bad], width, height);
    BlurredBoxesConcat(a, b, width, height);
    assert BlurredBoxes(a + [bad], width, height) == BlurredBoxes(a, width, height);
  }
}

=== FILE: delete_modal.dfy ===
/**
 * The delete confirmation (frontend/src/components/profile/DeleteModal.jsx):
 * how the awaited `DELETE /api/photos/<id>/` is classified and what the
 * dialog then does. The confirm and close callbacks are not called here;
 * the calls the dialog makes are returned, in order.
 */
module DeleteModal {
  import opened Wrappers

  const DefaultError: string := "Failed to delete. Please try again."

  datatype DeleteState = DeleteState(isDeleting: bool, error: string)

  const Initial: DeleteState := DeleteState(false, "")

  /**
   * The awaited request: it resolved, or it was rejected with an optional
   * response status and the response body's `error` field (`""` if absent).
   */
  datatype DeleteResponse = Resolved | Rejected(status: Option<int>, serverError: string)

  /** The callbacks the dialog calls. */
  datatype Call = Confirm(photoId: nat) | Close

  /** The first two statements of `handleDelete`. */
  function Start(s: DeleteState): (r: DeleteState)
    ensures r.isDeleting && r.error == ""
  {
    DeleteState(true, "")
  }

  /** A delete counts as done when the request resolved, or when it was rejected with status 204. */
  predicate Succeeded(response: DeleteResponse) {
    response.Resolved? || response.status == Some(204)
  }

  /**
   * The rest of `handleDelete`. On success the parent's confirm callback
   * gets the photo id, then the dialog closes; the state is left as it is
   * (the dialog is going away). On failure no callback runs, the error is
   * the server's message or the default text, and the buttons come back.
   */
  function Finish(s: DeleteState, photoId: nat, response: DeleteResponse): (r: (DeleteState, seq<Call>))
    ensures Succeeded(response) ==> r.1 == [Confirm(photoId), Close] && r.0 == s
    ensures !Succeeded(response) ==> r.1 == []
    ensures !Succeeded(response) ==> !r.0.isDeleting && r.0.error != ""
    ensures !Succeeded(response) && response.serverError != "" ==> r.0.error == response.serverError
    ensures !Succeeded(response) && response.serverError == "" ==> r.0.error == DefaultError
  {
    if Succeeded(response) then (s, [Confirm(photoId), Close])
    else
      var msg := if response.serverError != "" then response.serverError else DefaultError;
      (DeleteState(false, msg), [])
  }

  /** A click on Delete: start, then classify the response. */
  function HandleDelete(s: DeleteState, photoId: nat, response: DeleteResponse): (r: (DeleteState, seq<Call>))
    ensures Confirm(photoId) in r.1 <==> Succeeded(response)
    ensures forall c :: c in r.1 ==> c == Confirm(photoId) || c == Close
    ensures r.0.isDeleting <==> Succeeded(response)
  {
    Finish(Start(s), photoId, response)
  }

  /**
   * `handleDelete` as the dialog is actually mounted: the photo view passes
   * `onDeleteSuccess`, so `onConfirm` is undefined and calling it raises a
   * TypeError. After a resolved request the TypeError lands in the `catch`;
   * it has no response, so the dialog shows the default error and re-enables
   * its buttons, and `onClose` is never reached. After a 204 rejection the
   * TypeError is raised inside the `catch` itself and escapes: the dialog
   * stays busy with no error. Any other rejection is handled as written.
   */
  function HandleDeleteAsWired(s: DeleteState, photoId: nat, response: DeleteResponse): (r: (DeleteState, seq<Call>))
    ensures r.1 == []
    ensures response.Resolved? ==> r.0 == DeleteState(false, DefaultError)
    ensures !response.Resolved? && Succeeded(response) ==> r.0 == Start(s)
    ensures !Succeeded(response) ==> r == HandleDelete(s, photoId, response)
  {
    if response.Resolved? then (DeleteState(false, DefaultError), [])
    else if Succeeded(response) then (Start(s), [])
    else Finish(Start(s), photoId, response)
  }

  /**
   * The discrepancy on a delete the server carried out: as wired, the
   * dialog reports a failure and makes no call; as written to be used, it
   * confirms the photo id and closes.
   */
  lemma DeletedPhotoReportedAsFailure(s: DeleteState, photoId: nat)
    ensures HandleDeleteAsWired(s, photoId, Resolved) == (DeleteState(false, DefaultError), [])
    ensures HandleDelete(s, photoId, Resolved).1 == [Confirm(photoId), Close]
  {
  }

  /** A rejection carrying 204 is handled exactly like a resolved request, whatever else it carries. */
  lemma NoContentIsSuccess(s: DeleteState, photoId: nat, serverError: string)
    ensures HandleDelete(s, photoId, Rejected(Some(204), serverError)) == HandleDelete(s, photoId, Resolved)
  {
  }

  /** Both buttons are disabled exactly while a delete is in flight. */
  predicate ButtonsDisabled(s: DeleteState) {
    s.isDeleting
  }

  /** After a failure the dialog can be used again, and a retry clears the old message. */
  lemma FailureAllowsRetry(s: DeleteState, photoId: nat, response: DeleteResponse)
    requires !Succeeded(response)
    ensures !ButtonsDisabled(HandleDelete(s, photoId, response).0)
    ensures HandleDelete(s, photoId, response).0.error != ""
    ensures Start(HandleDelete(s, photoId, response).0).error == ""
    ensures ButtonsDisabled(Start(HandleDelete(s, photoId, response).0))
  {
  }
}

=== FILE: face_encoding.dfy ===
/**
 * Extraction of a user's face encoding from their profile picture, and the
 * queries that feed known encodings to photo processing
 * (backend/users/services.py). Face detection is an oracle: what reading the
 * picture produced is given to the model as an `ImageProbe`.
 */
module FaceEncoding {
  import opened Wrappers
  import opened UserModels
  import Seqs

  /** A detector bounding box `[x1, y1, x2, y2]`, coordinates as integers. */
  datatype FaceBox = FaceBox(x1: int, y1: int, x2: int, y2: int)

  datatype DetectedFace = DetectedFace(bbox: FaceBox, embedding: Encoding)

  /** What trying to read and analyse the profile picture produced. */
  datatype ImageProbe =
    | FileMissing                         // the path does not exist
    | Unreadable                          // the image decoder returned nothing
    | Faces(faces: seq<DetectedFace>)     // the detector ran; possibly no faces
    | Raised                              // any exception on the way

  /** The sort key: width times height of the box. */
  function Area(f: DetectedFace): int {
    (f.bbox.x2 - f.bbox.x1) * (f.bbox.y2 - f.bbox.y1)
  }

  /**
   * The face a stable sort by descending area puts first: one of maximal
   * area, and among those the earliest in detector order.
   */
  function LargestFaceIndex(faces: seq<DetectedFace>): (i: nat)
    requires |faces| > 0
    ensures i < |faces|
    ensures forall j :: 0 <= j < |faces| ==> Area(faces[j]) <= Area(faces[i])
    ensures forall j :: 0 <= j < i ==> Area(faces[j]) < Area(faces[i])
    decreases |faces|
  {
    if |faces| == 1 then 0
    else
      var j := LargestFaceIndex(faces[..|faces| - 1]);
      if Area(faces[|faces| - 1]) > Area(faces[j]) then |faces| - 1 else j
  }

  datatype Extraction = Extraction(user: User, ok: bool)

  /**
   * `extract_face_encoding`: the user after the call (only the status and
   * the stored encoding can change) and the boolean result.
   */
  function ExtractFaceEncoding(u: User, probe: ImageProbe): (r: Extraction)
    ensures r.user == u.(encodingStatus := r.user.encodingStatus, faceEncoding := r.user.faceEncoding)
    ensures r.ok <==> r.user.encodingStatus == Success
    ensures r.ok <==> HasValidFaceEncoding(r.user)
    ensures !r.ok ==> r.user.encodingStatus == NoFace || r.user.encodingStatus == Error
    ensures !HasProfilePic(u) ==> r.user.encodingStatus == NoFace && r.user.faceEncoding == u.faceEncoding
    ensures HasProfilePic(u) && (probe.FileMissing? || probe.Unreadable? || probe.Raised?) ==>
              r.user.encodingStatus == Error && r.user.faceEncoding == u.faceEncoding
    ensures HasProfilePic(u) && probe.Faces? && |probe.faces| == 0 ==>
              r.user.encodingStatus == NoFace && r.user.faceEncoding == None
    ensures r.user.faceEncoding != u.faceEncoding ==> HasProfilePic(u) && probe.Faces?
    ensures HasProfilePic(u) && probe.Faces? && |probe.faces| > 0 ==>
              r.ok && exists i :: 0 <= i < |probe.faces| && r.user.faceEncoding == Some(probe.faces[i].embedding)
                                  && forall j :: 0 <= j < |probe.faces| ==> Area(probe.faces[j]) <= Area(probe.faces[i])
  {
    if !HasProfilePic(u) then
      Extraction(u.(encodingStatus := NoFace), false)
    else
      match probe
      case FileMissing => Extraction(u.(encodingStatus := Error), false)
      case Unreadable => Extraction(u.(encodingStatus := Error), false)
      case Raised => Extraction(u.(encodingStatus := Error), false)
      case Faces(faces) =>
        if |faces| == 0 then
          Extraction(u.(encodingStatus := NoFace, faceEncoding := None), false)
        else
          var i := LargestFaceIndex(faces);
          Extraction(u.(encodingStatus := Success, faceEncoding := Some(faces[i].embedding)), true)
  }

  /** `get_users_with_encodings`: the users whose status is SUCCESS with a stored encoding, in table order. */
  function UsersWithEncodings(users: seq<User>): (r: seq<User>)
    ensures forall u :: u in r <==> u in users && u.encodingStatus == Success && u.faceEncoding.Some?
  {
    Seqs.Filter(users, HasValidFaceEncoding)
  }

  /** Whether the array conversion of a user's stored encoding succeeds. */
  function Converts(convert: Encoding -> Option<Encoding>): User -> bool {
    (u: User) => u.faceEncoding.Some? && convert(u.faceEncoding.value).Some?
  }

  /**
   * `get_face_encodings_dict`: parallel sequences of converted encodings and
   * their users. `convert` is the array conversion, `None` where it raises;
   * such users are skipped.
   */
  method FaceEncodingsDict(users: seq<User>, convert: Encoding -> Option<Encoding>)
    returns (encodings: seq<Encoding>, known: seq<User>)
    ensures |encodings| == |known|
    ensures forall k :: 0 <= k < |known| ==>
              known[k] in users && HasValidFaceEncoding(known[k]) &&
              convert(known[k].faceEncoding.value) == Some(encodings[k])
    ensures forall u :: u in users && HasValidFaceEncoding(u) && convert(u.faceEncoding.value).Some? ==> u in known
    ensures (forall u :: u in users ==> !HasValidFaceEncoding(u)) ==> known == [] && encodings == []
    // each queried user appears once
    ensures UniqueIds(users) ==> UniqueIds(known)
  {
    var candidates := UsersWithEncodings(users);
    encodings, known := ConvertEach(candidates, convert);
    assert forall k :: 0 <= k < |known| ==> known[k] in known;
    if UniqueIds(users) {
      FilterKeepsUniqueIds(users, HasValidFaceEncoding);
      FilterKeepsUniqueIds(candidates, Converts(convert));
    }
  }

  /** The loop of `get_face_encodings_dict`: converts each candidate in turn, skipping those whose conversion raises. */
  method ConvertEach(candidates: seq<User>, convert: Encoding -> Option<Encoding>)
    returns (encodings: seq<Encoding>, known: seq<User>)
    requires forall k :: 0 <= k < |candidates| ==> candidates[k].faceEncoding.Some?
    ensures known == Seqs.Filter(candidates, Converts(convert))
    ensures |encodings| == |known|
    ensures forall k :: 0 <= k < |known| ==>
              known[k].faceEncoding.Some? && convert(known[k].faceEncoding.value) == Some(encodings[k])
  {
    encodings, known := [], [];
    var n := 0;
    while n < |candidates|
      invariant n <= |candidates|
      invariant known == Seqs.Filter(candidates[..n], Converts(convert))
      invariant |encodings| == |known|
      invariant forall k :: 0 <= k < |known| ==>
                  known[k].faceEncoding.Some? && convert(known[k].faceEncoding.value) == Some(encodings[k])
    {
      var u := candidates[n];
      var converted := convert(u.faceEncoding.value);
      if converted.Some? {
        encodings, known := encodings + [converted.value], known + [u];
      }
      Seqs.FilterPrefixStep(candidates, n, Converts(convert));
      n := n + 1;
    }
    assert candidates[..n] == candidates;
  }

  /** Which of the three counters a processed user increments. */
  datatype Bucket = SuccessBucket | NoFaceBucket | ErrorBucket

  function BucketOf(r: Extraction): Bucket {
    if r.ok then SuccessBucket
    else if r.user.encodingStatus == NoFace then NoFaceBucket
    else ErrorBucket
  }

  datatype Stats = Stats(total: nat, success: nat, noFace: nat, error: nat)

  /** The number of `users` whose extraction lands in bucket `b`. */
  function CountBucket(users: seq<User>, probe: UserId -> ImageProbe, b: Bucket): nat
    decreases |users|
  {
    if |users| == 0 then 0
    else
      (if BucketOf(ExtractFaceEncoding(users[0], probe(users[0].id))) == b then 1 else 0) +
      CountBucket(users[1..], probe, b)
  }

  /** Every user lands in exactly one bucket, so the three counts add up to the number of users. */
  lemma {:induction false} BucketsPartition(users: seq<User>, probe: UserId -> ImageProbe)
    ensures CountBucket(users, probe, SuccessBucket) + CountBucket(users, probe, NoFaceBucket) +
            CountBucket(users, probe, ErrorBucket) == |users|
    decreases |users|
  {
    if |users| > 0 {
      BucketsPartition(users[1..], probe);
    }
  }

  /**
   * `recompute_all_face_encodings`: every user with a profile picture is
   * re-extracted, in table order, and counted in one bucket. `probe` is the
   * detection oracle.
   */
  method RecomputeAllFaceEncodings(users: seq<User>, probe: UserId -> ImageProbe)
    returns (updated: seq<User>, stats: Stats)
    ensures |updated| == |users|
    ensures forall i :: 0 <= i < |users| ==>
              updated[i] == (if HasProfilePic(users[i])
                             then ExtractFaceEncoding(users[i], probe(users[i].id)).user
                             else users[i])
    ensures stats.total == |Seqs.Filter(users, HasProfilePic)|
    ensures stats.success + stats.noFace + stats.error == stats.total
    ensures stats.success == CountBucket(Seqs.Filter(users, HasProfilePic), probe, SuccessBucket)
    ensures stats.noFace == CountBucket(Seqs.Filter(users, HasProfilePic), probe, NoFaceBucket)
    ensures stats.error == CountBucket(Seqs.Filter(users, HasProfilePic), probe, ErrorBucket)
  {
    var eligible := Seqs.Filter(users, HasProfilePic);
    stats := TallyBuckets(eligible, probe);
    updated := seq(|users|, i requires 0 <= i < |users| =>
                 if HasProfilePic(users[i]) then ExtractFaceEncoding(users[i], probe(users[i].id)).user else users[i]);
  }

  /**
   * The selection as `recompute_all_face_encodings` writes it,
   * `exclude(profile_pic__in=['', None])`: SQL's `IN` never matches NULL,
   * and a negated lookup on a nullable column keeps the NULL rows, so only
   * the empty path is excluded and users with no picture at all stay in.
   */
  predicate SelectedAsWritten(u: User) {
    u.profilePic != Some("")
  }

  /**
   * `recompute_all_face_encodings` with the selection as written: users
   * whose picture is NULL are re-extracted too, which marks them NO_FACE and
   * counts them as processed.
   */
  method RecomputeAllAsWritten(users: seq<User>, probe: UserId -> ImageProbe)
    returns (updated: seq<User>, stats: Stats)
    ensures |updated| == |users|
    ensures forall i :: 0 <= i < |users| ==>
              updated[i] == (if SelectedAsWritten(users[i])
                             then ExtractFaceEncoding(users[i], probe(users[i].id)).user
                             else users[i])
    ensures stats.total == |Seqs.Filter(users, SelectedAsWritten)|
    ensures stats.success + stats.noFace + stats.error == stats.total
    ensures stats.noFace == CountBucket(Seqs.Filter(users, SelectedAsWritten), probe, NoFaceBucket)
  {
    var eligible := Seqs.Filter(users, SelectedAsWritten);
    stats := TallyBuckets(eligible, probe);
    updated := seq(|users|, i requires 0 <= i < |users| =>
                 if SelectedAsWritten(users[i]) then ExtractFaceEncoding(users[i], probe(users[i].id)).user else users[i]);
  }

  /**
   * The selection as written and the one intended differ exactly on the
   * users whose picture is NULL: both skip an empty path, both keep a real
   * picture, and only the written one keeps a missing picture.
   */
  lemma SelectionsDifferOnNull(u: User)
    ensures HasProfilePic(u) ==> SelectedAsWritten(u)
    ensures SelectedAsWritten(u) && !HasProfilePic(u) <==> u.profilePic.None?
  {
  }

  /**
   * A single user who never uploaded a picture: the selection as written
   * processes them and counts one NO_FACE result, where the intended
   * selection processes nobody.
   */
  lemma NullPictureCountedAsWritten(probe: UserId -> ImageProbe)
    ensures var u := NewUser(1, "nopic");
            && Seqs.Filter([u], SelectedAsWritten) == [u]
            && CountBucket([u], probe, NoFaceBucket) == 1
            && Seqs.Filter([u], HasProfilePic) == []
  {
    var u := NewUser(1, "nopic");
    assert [u][1..] == [];
    assert BucketOf(ExtractFaceEncoding(u, probe(u.id))) == NoFaceBucket;
  }

  /** The counting loop of `recompute_all_face_encodings`: one increment per user, in its own bucket. */
  method TallyBuckets(eligible: seq<User>, probe: UserId -> ImageProbe) returns (stats: Stats)
    ensures stats.total == |eligible|
    ensures stats.success + stats.noFace + stats.error == stats.total
    ensures stats.success == CountBucket(eligible, probe, SuccessBucket)
    ensures stats.noFace == CountBucket(eligible, probe, NoFaceBucket)
    ensures stats.error == CountBucket(eligible, probe, ErrorBucket)
  {
    stats := Stats(|eligible|, 0, 0, 0);
    var n := 0;
    while n < |eligible|
      invariant n <= |eligible|
      invariant stats.total == |eligible|
      invariant stats.success == CountBucket(eligible[..n], probe, SuccessBucket)
      invariant stats.noFace == CountBucket(eligible[..n], probe, NoFaceBucket)
      invariant stats.error == CountBucket(eligible[..n], probe, ErrorBucket)
    {
      var u := eligible[n];
      var b := BucketOf(ExtractFaceEncoding(u, probe(u.id)));
      CountBucketSnoc(eligible[..n], u, probe);
      assert eligible[..n + 1] == eligible[..n] + [u];
      if b == SuccessBucket {
        stats := stats.(success := stats.success + 1);
      } else if b == NoFaceBucket {
        stats := stats.(noFace := stats.noFace + 1);
      } else {
        stats := stats.(error := stats.error + 1);
      }
      n := n + 1;
    }
    assert eligible[..n] == eligible;
    BucketsPartition(eligible, probe);
  }

  lemma {:induction false} CountBucketSnoc(users: seq<User>, u: User, probe: UserId -> ImageProbe)
    ensures forall b :: CountBucket(users + [u], probe, b) ==
              CountBucket(users, probe, b) + (if BucketOf(ExtractFaceEncoding(u, probe(u.id))) == b then 1 else 0)
    decreases |users|
  {
    if |users| > 0 {
      assert (users + [u])[1..] == users[1..] + [u];
      CountBucketSnoc(users[1..], u, probe);
    }
  }
}

=== FILE: followers_modal.dfy ===
/**
 * The followers/following list (frontend/src/components/profile/FollowersModal.jsx):
 * which endpoint it loads, how the loaded list is narrowed by the search
 * box, and what each row and the empty list show.
 */
module FollowersModal {
  import opened Wrappers
  import opened Text
  import opened ApiTypes
  import opened MediaUrls
  import Header
  import Seqs

  datatype ModalState = ModalState(users: seq<ApiUser>, loading: bool, searchQuery: string)

  /** `/api/users/<id>/followers/` for `type === 'followers'`, the following list for any other type. */
  function Endpoint(userId: string, kind: string): (r: string)
    ensures StartsWith(r, "/api/users/" + userId + "/")
    ensures r == "/api/users/" + userId + "/followers/" <==> kind == "followers"
    ensures kind != "followers" ==> r == "/api/users/" + userId + "/following/"
  {
    var base := "/api/users/" + userId + "/";
    assert (base + "followers/")[..|base|] == base;
    assert (base + "following/")[..|base|] == base;
    if kind == "followers" then base + "followers/"
    else
      assert (base + "following/")[|base| + 6] != (base + "followers/")[|base| + 6];
      base + "following/"
  }

  /**
   * The endpoint names the list unambiguously: two endpoints are equal
   * only for the same user id and the same choice of list.
   */
  lemma EndpointInjective(u1: string, k1: string, u2: string, k2: string)
    requires Endpoint(u1, k1) == Endpoint(u2, k2)
    ensures u1 == u2
    ensures k1 == "followers" <==> k2 == "followers"
  {
    var e := Endpoint(u1, k1);
    var n := |"/api/users/"|;
    assert |e| == n + |u1| + 11 == n + |u2| + 11;
    assert e[n..n + |u1|] == u1 by {
      assert e == "/api/users/" + u1 + "/" + (if k1 == "followers" then "followers/" else "following/");
    }
    assert e[n..n + |u2|] == u2 by {
      assert e == "/api/users/" + u2 + "/" + (if k2 == "followers" then "followers/" else "following/");
    }
  }

  /**
   * `fetchUsers`: a successful load replaces the list, a failed one leaves
   * it as it was; either way loading ends.
   */
  function FetchUsers(s: ModalState, response: Fetch<seq<ApiUser>>): (r: ModalState)
    ensures !r.loading
    ensures response.Fetched? ==> r.users == response.data
    ensures response.Failed? ==> r.users == s.users
    ensures r.searchQuery == s.searchQuery
  {
    match response
    case Fetched(data) => s.(users := data, loading := false)
    case Failed => s.(loading := false)
  }

  /** The row filter: the lower-cased query occurs in the lower-cased username. */
  predicate UsernameMatches(u: ApiUser, query: string) {
    Contains(Lower(u.username), Lower(query))
  }

  /** `filteredUsers`: the loaded users whose username matches, in loaded order. */
  function FilterUsers(users: seq<ApiUser>, query: string): (r: seq<ApiUser>)
    ensures forall u :: u in r <==> u in users && UsernameMatches(u, query)
    ensures |r| <= |users|
  {
    Seqs.Filter(users, (u: ApiUser) => UsernameMatches(u, query))
  }

  /**
   * The filter keeps the loaded order: a single user shows iff it matches,
   * and the rows of a longer list are those of its parts, part after part.
   */
  lemma {:induction false} FilterUsersKeepsOrder(a: seq<ApiUser>, b: seq<ApiUser>, u: ApiUser, query: string)
    ensures FilterUsers([u], query) == if UsernameMatches(u, query) then [u] else []
    ensures FilterUsers(a + b, query) == FilterUsers(a, query) + FilterUsers(b, query)
  {
    assert [u][1..] == [];
    Seqs.FilterConcat(a, b, (v: ApiUser) => UsernameMatches(v, query));
  }

  /** With an empty search box the whole list shows, in order. */
  lemma EmptyQueryKeepsAll(users: seq<ApiUser>)
    ensures FilterUsers(users, "") == users
  {
    assert Lower("") == "";
    forall i | 0 <= i < |users| ensures UsernameMatches(users[i], "") {
      assert "" <= Lower(users[i].username);
    }
    Seqs.FilterKeepsAll(users, (u: ApiUser) => UsernameMatches(u, ""));
  }

  /** Filtering the filtered list again changes nothing. */
  lemma FilterUsersIdempotent(users: seq<ApiUser>, query: string)
    ensures FilterUsers(FilterUsers(users, query), query) == FilterUsers(users, query)
  {
    var f := FilterUsers(users, query);
    assert forall i :: 0 <= i < |f| ==> f[i] in f;
    Seqs.FilterKeepsAll(f, (u: ApiUser) => UsernameMatches(u, query));
  }

  /** The second line of a row shows `first last`, and only when both names are set. */
  function FullNameLine(u: ApiUser): (r: Option<string>)
    ensures r.Some? <==> u.firstName != "" && u.lastName != ""
    ensures r.Some? ==> |r.value| == |u.firstName| + 1 + |u.lastName| && r.value[|u.firstName|] == ' '
    ensures r.Some? ==> r.value[..|u.firstName|] == u.firstName && r.value[|u.firstName| + 1..] == u.lastName
  {
    if u.firstName != "" && u.lastName != "" then
      var line := u.firstName + " " + u.lastName;
      assert line[..|u.firstName|] == u.firstName;
      assert line[|u.firstName| + 1..] == u.lastName;
      Some(line)
    else None
  }

  /**
   * A reload as the list shows it: after a successful load the rows are the
   * new data narrowed by the unchanged query; after a failure the rows on
   * screen stay as they were.
   */
  lemma ReloadShows(s: ModalState, response: Fetch<seq<ApiUser>>)
    ensures response.Fetched? ==>
              FilterUsers(FetchUsers(s, response).users, s.searchQuery) == FilterUsers(response.data, s.searchQuery)
    ensures response.Failed? ==>
              FilterUsers(FetchUsers(s, response).users, s.searchQuery) == FilterUsers(s.users, s.searchQuery)
    ensures !FetchUsers(s, response).loading
  {
  }

  /**
   * The list's name line and the header's search result agree when both
   * names are set; with only one set, the header shows that name and the
   * list shows no line.
   */
  lemma FullNameLineAgreesWithHeader(u: ApiUser)
    ensures FullNameLine(u).Some? <==> u.firstName != "" && u.lastName != ""
    ensures FullNameLine(u).Some? ==> FullNameLine(u).value == Header.FullName(u)
    ensures FullNameLine(u).None? ==> Header.FullName(u) == u.firstName + u.lastName
  {
    if FullNameLine(u).Some? {
      var line := FullNameLine(u).value;
      assert line == line[..|u.firstName|] + [' '] + line[|u.firstName| + 1..];
    }
  }

  /** A row's picture: the user's own, else a generated one from the raw (unencoded) username. */
  function RowAvatar(u: ApiUser): (r: string)
    ensures u.profilePic != "" ==> Some(r) == ImageUrl(u.profilePic)
    ensures u.profilePic == "" ==> r == UiAvatar(u.username, "&background=556B2F&color=fff&size=48")
    ensures AvatarReadsBack(r, u.profilePic, u.username + "&background=556B2F&color=fff&size=48")
  {
    AvatarOrReadsBack(u.profilePic, u.username, "&background=556B2F&color=fff&size=48");
    AvatarOr(u.profilePic, UiAvatar(u.username, "&background=556B2F&color=fff&size=48"))
  }

  /** The text under an empty list: a search miss, or `No <type> yet` when nothing is being searched. */
  function EmptyMessage(query: string, kind: string): (r: string)
    ensures query != "" ==> r == "No users found"
    ensures query == "" ==> r == "No " + kind + " yet"
  {
    if query != "" then "No users found" else "No " + kind + " yet"
  }

  /**
   * The empty-list message never claims a miss while nothing is being
   * searched: an empty list with an empty query means the list itself is
   * empty.
   */
  lemma EmptyWithoutQuery(s: ModalState)
    requires FilterUsers(s.users, s.searchQuery) == []
    requires s.searchQuery == ""
    ensures s.users == []
    ensures EmptyMessage(s.searchQuery, "followers") == "No followers yet"
  {
    EmptyQueryKeepsAll(s.users);
  }
}

=== FILE: follows.dfy ===
/**
 * The follow graph: the `Follow` table of (follower, following) rows with
 * their creation time, and the follow endpoints of the user API
 * (backend/users/models.py, backend/users/views.py). The table is kept in
 * its default order, newest first.
 */
module Follows {
  import opened UserModels
  import Seqs

  datatype Follow = Follow(follower: UserId, following: UserId, createdAt: int)

  function Pair(f: Follow): (UserId, UserId) {
    (f.follower, f.following)
  }

  function CreatedAt(f: Follow): int {
    f.createdAt
  }

  /** The follow relation the table represents. */
  function Edges(t: seq<Follow>): (r: set<(UserId, UserId)>)
    ensures forall i :: 0 <= i < |t| ==> Pair(t[i]) in r
    ensures forall p :: p in r ==> exists i :: 0 <= i < |t| && Pair(t[i]) == p
    decreases |t|
  {
    if |t| == 0 then {}
    else
      var rest := Edges(t[1..]);
      assert forall i :: 1 <= i < |t| ==> Pair(t[i]) == Pair(t[1..][i - 1]);
      {Pair(t[0])} + rest
  }

  /** Dropping every row of one pair removes exactly that pair from the relation. */
  lemma {:induction false} EdgesWithout(t: seq<Follow>, pair: (UserId, UserId))
    ensures Edges(Seqs.Filter(t, f => Pair(f) != pair)) == Edges(t) - {pair}
    decreases |t|
  {
    if |t| > 0 {
      var p := (f: Follow) => Pair(f) != pair;
      EdgesWithout(t[1..], pair);
      var head: seq<Follow> := if p(t[0]) then [t[0]] else [];
      var rest := Seqs.Filter(t[1..], p);
      assert Seqs.Filter(t, p) == head + rest;
      if p(t[0]) {
        assert (head + rest)[1..] == rest;
      } else {
        assert head + rest == rest;
      }
    }
  }

  /** `unique_together = ('follower', 'following')`. */
  ghost predicate Unique(t: seq<Follow>) {
    forall i, j :: 0 <= i < j < |t| ==> Pair(t[i]) != Pair(t[j])
  }

  /** `ordering = ['-created_at']`. */
  ghost predicate NewestFirst(t: seq<Follow>) {
    Seqs.SortedDesc(t, CreatedAt)
  }

  ghost predicate WellFormed(t: seq<Follow>) {
    Unique(t) && NewestFirst(t)
  }

  /** The clock reads no earlier than any stored row. */
  ghost predicate ClockAhead(t: seq<Follow>, now: int) {
    forall i :: 0 <= i < |t| ==> t[i].createdAt <= now
  }

  /** `Follow.objects.filter(follower=a, following=b).exists()`, the body of `follow_status`. */
  function IsFollowing(t: seq<Follow>, a: UserId, b: UserId): (r: bool)
    ensures r <==> (a, b) in Edges(t)
    decreases |t|
  {
    if |t| == 0 then false
    else if t[0].follower == a && t[0].following == b then true
    else IsFollowing(t[1..], a, b)
  }

  datatype FollowMethod = Post | Delete

  datatype FollowResponse = FollowResponse(status: int, table: seq<Follow>)

  /**
   * `UserViewSet.follow`: `userIds` are the existing users (an unknown
   * target is a 404 from the object lookup), `now` the clock for
   * `created_at`.
   */
  function FollowAction(t: seq<Follow>, userIds: set<UserId>, current: UserId, target: UserId,
                        verb: FollowMethod, now: int): (r: FollowResponse)
    ensures target !in userIds ==> r == FollowResponse(404, t)
    ensures target in userIds && target == current ==> r == FollowResponse(400, t)
    ensures target in userIds && target != current && verb == Post ==>
              if (current, target) in Edges(t) then r == FollowResponse(200, t)
              else r.status == 201 && Edges(r.table) == Edges(t) + {(current, target)}
    ensures target in userIds && target != current && verb == Delete ==>
              if (current, target) in Edges(t) then r.status == 204 && Edges(r.table) == Edges(t) - {(current, target)}
              else r == FollowResponse(404, t)
    ensures WellFormed(t) && ClockAhead(t, now) ==> WellFormed(r.table)
  {
    if target !in userIds then FollowResponse(404, t)
    else if target == current then FollowResponse(400, t)
    else
      match verb
      case Post =>
        if IsFollowing(t, current, target) then FollowResponse(200, t)
        else
          var t' := [Follow(current, target, now)] + t;
          assert t'[1..] == t;
          PrependKeepsWellFormed(t, Follow(current, target, now));
          FollowResponse(201, t')
      case Delete =>
        if IsFollowing(t, current, target) then
          var t' := Seqs.Filter(t, f => Pair(f) != (current, target));
          EdgesWithout(t, (current, target));
          FilterKeepsWellFormed(t, f => Pair(f) != (current, target));
          FollowResponse(204, t')
        else FollowResponse(404, t)
  }

  lemma PrependKeepsWellFormed(t: seq<Follow>, f: Follow)
    requires Pair(f) !in Edges(t)
    ensures WellFormed(t) && ClockAhead(t, f.createdAt) ==> WellFormed([f] + t)
  {
    if WellFormed(t) && ClockAhead(t, f.createdAt) {
      var t' := [f] + t;
      forall i, j | 0 <= i < j < |t'|
        ensures Pair(t'[i]) != Pair(t'[j]) && t'[i].createdAt >= t'[j].createdAt
      {
        if i == 0 {
          assert t'[i] == f && t'[j] == t[j - 1];
          assert Pair(t[j - 1]) in Edges(t);
          assert t[j - 1].createdAt <= f.createdAt;
        } else {
          assert t'[i] == t[i - 1] && t'[j] == t[j - 1];
          assert Pair(t[i - 1]) != Pair(t[j - 1]) && t[i - 1].createdAt >= t[j - 1].createdAt;
        }
      }
      assert Unique(t') && NewestFirst(t');
    }
  }

  lemma FilterKeepsWellFormed(t: seq<Follow>, p: Follow -> bool)
    ensures WellFormed(t) ==> WellFormed(Seqs.Filter(t, p))
  {
    if WellFormed(t) {
      Seqs.FilterPreservesSortedDesc(t, p, CreatedAt);
      FilterKeepsUnique(t, p);
    }
  }

  lemma {:induction false} FilterKeepsUnique(t: seq<Follow>, p: Follow -> bool)
    requires Unique(t)
    ensures Unique(Seqs.Filter(t, p))
    decreases |t|
  {
    if |t| > 0 {
      FilterKeepsUnique(t[1..], p);
      var rest := Seqs.Filter(t[1..], p);
      var r := Seqs.Filter(t, p);
      if p(t[0]) {
        assert r == [t[0]] + rest;
        forall k | 0 <= k < |rest|
          ensures Pair(t[0]) != Pair(rest[k])
        {
          assert rest[k] in t[1..];
          var m :| 0 <= m < |t[1..]| && t[1..][m] == rest[k];
          assert t[m + 1] == rest[k];
        }
      } else {
        assert r == rest;
      }
    }
  }

  /** Starting from not following, a follow then an unfollow restores the table exactly. */
  lemma FollowThenUnfollow(t: seq<Follow>, userIds: set<UserId>, current: UserId, target: UserId, now: int)
    requires target in userIds && target != current
    requires (current, target) !in Edges(t)
    ensures var posted := FollowAction(t, userIds, current, target, Post, now);
            var deleted := FollowAction(posted.table, userIds, current, target, Delete, now);
            posted.status == 201 && deleted.status == 204 && deleted.table == t
  {
    var t' := [Follow(current, target, now)] + t;
    var p := (f: Follow) => Pair(f) != (current, target);
    Seqs.FilterConcat([Follow(current, target, now)], t, p);
    forall i | 0 <= i < |t|
      ensures p(t[i])
    {
      assert t[i] in t;
    }
    Seqs.FilterKeepsAll(t, p);
  }

  /** A repeated follow changes nothing and answers 200. */
  lemma FollowIdempotent(t: seq<Follow>, userIds: set<UserId>, current: UserId, target: UserId, now: int, later: int)
    ensures var once := FollowAction(t, userIds, current, target, Post, now);
            var twice := FollowAction(once.table, userIds, current, target, Post, later);
            twice.table == once.table && (target in userIds && target != current ==> twice.status == 200)
  {
  }

  /** Which end of the edge a list is about. */
  datatype Side = FollowersOf | FollowingOf

  /** The user a row is filed under for the given list. */
  function Anchor(f: Follow, side: Side): UserId {
    if side == FollowersOf then f.following else f.follower
  }

  /** The user a row contributes to the given list. */
  function Other(f: Follow, side: Side): UserId {
    if side == FollowersOf then f.follower else f.following
  }

  /** The rows `Follow.objects.filter(following=u)` (or `follower=u`) selects, in table order. */
  function RelatedRows(t: seq<Follow>, u: UserId, side: Side): seq<Follow> {
    Seqs.Filter(t, f => Anchor(f, side) == u)
  }

  /** `followers` / `following`: the users at the other end of `u`'s rows, in table order. */
  function RelatedUsers(t: seq<Follow>, u: UserId, side: Side): seq<UserId>
    decreases |t|
  {
    if |t| == 0 then []
    else (if Anchor(t[0], side) == u then [Other(t[0], side)] else []) + RelatedUsers(t[1..], u, side)
  }

  /**
   * The list is the other ends of exactly the rows the count counts, in the
   * same order; so the count equals the list's length.
   */
  lemma {:induction false} RelatedUsersFollowRows(t: seq<Follow>, u: UserId, side: Side)
    ensures |RelatedUsers(t, u, side)| == |RelatedRows(t, u, side)| == RelatedCount(t, u, side)
    ensures forall i :: 0 <= i < |RelatedRows(t, u, side)| ==>
              RelatedUsers(t, u, side)[i] == Other(RelatedRows(t, u, side)[i], side)
    decreases |t|
  {
    if |t| > 0 {
      RelatedUsersFollowRows(t[1..], u, side);
    }
  }

  /** The lists come out newest row first, as the table's default ordering promises. */
  lemma RelatedRowsNewestFirst(t: seq<Follow>, u: UserId, side: Side)
    requires NewestFirst(t)
    ensures Seqs.SortedDesc(RelatedRows(t, u, side), CreatedAt)
  {
    Seqs.FilterPreservesSortedDesc(t, f => Anchor(f, side) == u, CreatedAt);
  }

  /** `follow_counts`: a row count per direction. */
  function RelatedCount(t: seq<Follow>, u: UserId, side: Side): nat {
    |RelatedRows(t, u, side)|
  }

  /** The distinct users related to `u` on one side. */
  function Neighbours(t: seq<Follow>, u: UserId, side: Side): set<UserId>
    decreases |t|
  {
    if |t| == 0 then {}
    else (if Anchor(t[0], side) == u then {Other(t[0], side)} else {}) + Neighbours(t[1..], u, side)
  }

  /** `Neighbours` are the followers (or followees) of `u` in the follow relation. */
  lemma {:induction false} NeighboursAreEdges(t: seq<Follow>, u: UserId, side: Side, v: UserId)
    ensures v in Neighbours(t, u, side) <==> (if side == FollowersOf then (v, u) else (u, v)) in Edges(t)
    decreases |t|
  {
    if |t| > 0 {
      NeighboursAreEdges(t[1..], u, side, v);
    }
  }

  /** The list the endpoint returns holds exactly the neighbours, so exactly the users related in the relation. */
  lemma {:induction false} ListIsNeighbours(t: seq<Follow>, u: UserId, side: Side, v: UserId)
    ensures v in RelatedUsers(t, u, side) <==> v in Neighbours(t, u, side)
    decreases |t|
  {
    if |t| > 0 {
      ListIsNeighbours(t[1..], u, side, v);
    }
  }

  /**
   * With pairs unique, the count is the in-degree (followers) or out-degree
   * (following) of `u`.
   */
  lemma {:induction false} CountIsDegree(t: seq<Follow>, u: UserId, side: Side)
    requires Unique(t)
    ensures RelatedCount(t, u, side) == |Neighbours(t, u, side)|
    decreases |t|
  {
    if |t| > 0 {
      var rest := t[1..];
      assert Unique(rest) by {
        forall i, j | 0 <= i < j < |rest|
          ensures Pair(rest[i]) != Pair(rest[j])
        {
          assert rest[i] == t[i + 1] && rest[j] == t[j + 1];
        }
      }
      CountIsDegree(rest, u, side);
      if Anchor(t[0], side) == u {
        NeighboursAreEdges(rest, u, side, Other(t[0], side));
      }
    }
  }

  datatype FollowCounts = FollowCounts(followersCount: nat, followingCount: nat)

  /** `follow_counts` for an existing user: each count is the length of the matching list. */
  function Counts(t: seq<Follow>, u: UserId): (r: FollowCounts)
    ensures r.followersCount == |RelatedUsers(t, u, FollowersOf)|
    ensures r.followingCount == |RelatedUsers(t, u, FollowingOf)|
  {
    RelatedUsersFollowRows(t, u, FollowersOf);
    RelatedUsersFollowRows(t, u, FollowingOf);
    FollowCounts(RelatedCount(t, u, FollowersOf), RelatedCount(t, u, FollowingOf))
  }
}

=== FILE: header.dfy ===
/**
 * The top bar (frontend/src/components/shell/Header.jsx): it hides while
 * the page scrolls down and shows again on the way up, and it searches
 * users by name as the query changes. Each handler is a transition of the
 * component's state; the awaited fetch is a parameter.
 */
module Header {
  import opened Wrappers
  import opened Text
  import opened ApiTypes
  import opened MediaUrls
  import Seqs

  /** At most this many search results are kept. */
  const MaxResults: nat := 10

  datatype HeaderState = HeaderState(
    isVisible: bool,
    lastScrollY: int,
    isSearchFocused: bool,
    searchQuery: string,
    searchResults: seq<ApiUser>,
    isSearching: bool
  )

  const Initial: HeaderState := HeaderState(true, 0, false, "", [], false)

  /**
   * `controlNavbar` on a scroll to `y`: always shown near the top; hidden,
   * and the search dropdown dismissed, when moving down past 100; shown on
   * any other move. The position is remembered for the next event.
   */
  function ControlNavbar(s: HeaderState, y: int): (r: HeaderState)
    ensures r.lastScrollY == y
    ensures y < 10 ==> r.isVisible
    ensures !r.isVisible <==> 10 <= y && y > s.lastScrollY && y > 100
    ensures !r.isVisible ==> !r.isSearchFocused
    ensures r.isVisible ==> r.isSearchFocused == s.isSearchFocused
    ensures r.searchQuery == s.searchQuery && r.searchResults == s.searchResults && r.isSearching == s.isSearching
  {
    var t :=
      if y < 10 then s.(isVisible := true)
      else if y > s.lastScrollY && y > 100 then s.(isVisible := false, isSearchFocused := false)
      else s.(isVisible := true);
    t.(lastScrollY := y)
  }

  /** A run of scroll events, oldest first. */
  function Scroll(s: HeaderState, ys: seq<int>): (r: HeaderState)
    decreases |ys|
  {
    if |ys| == 0 then s else Scroll(ControlNavbar(s, ys[0]), ys[1..])
  }

  /**
   * After any run of scroll events the header is hidden only if the last
   * one moved down past 100, a hidden header never has the search dropdown
   * focused, and the remembered position is the last one seen.
   */
  lemma {:induction false} ScrollInvariant(s: HeaderState, ys: seq<int>)
    requires !s.isVisible ==> !s.isSearchFocused
    ensures var r := Scroll(s, ys);
            !r.isVisible ==> !r.isSearchFocused
    ensures |ys| > 0 ==> Scroll(s, ys).lastScrollY == ys[|ys| - 1]
    ensures |ys| > 0 && !Scroll(s, ys).isVisible ==> ys[|ys| - 1] > 100
    ensures |ys| == 0 ==> Scroll(s, ys) == s
    decreases |ys|
  {
    if |ys| > 0 {
      ScrollInvariant(ControlNavbar(s, ys[0]), ys[1..]);
      if |ys| > 1 {
        assert ys[1..][|ys[1..]| - 1] == ys[|ys| - 1];
      }
    }
  }

  /**
   * The search filter: the lower-cased query (untrimmed) occurs in the
   * lower-cased username, or in a first or last name that is set.
   */
  predicate Matches(u: ApiUser, query: string) {
    var q := Lower(query);
    || Contains(Lower(u.username), q)
    || (u.firstName != "" && Contains(Lower(u.firstName), q))
    || (u.lastName != "" && Contains(Lower(u.lastName), q))
  }

  /** The search ignores the case of the query. */
  lemma MatchesIgnoresCase(u: ApiUser, query: string)
    ensures Matches(u, query) <==> Matches(u, Lower(query))
  {
    LowerIdempotent(query);
  }

  /** Every user matches the empty query: the username always contains "". */
  lemma MatchesEmpty(u: ApiUser)
    ensures Matches(u, "")
  {
    assert Lower("") == "";
    assert "" <= Lower(u.username);
  }

  /** `filtered.slice(0, 10)`. */
  function SearchResults(users: seq<ApiUser>, query: string): (r: seq<ApiUser>)
    ensures |r| <= MaxResults
    ensures forall u :: u in r ==> u in users && Matches(u, query)
    ensures r <= Seqs.Filter(users, (u: ApiUser) => Matches(u, query))
    // nothing is dropped unless the cap is reached
    ensures |r| < MaxResults ==> forall u :: u in users && Matches(u, query) ==> u in r
  {
    var all := Seqs.Filter(users, (u: ApiUser) => Matches(u, query));
    var r := Seqs.Take(all, MaxResults);
    assert forall u :: u in r ==> u in all by {
      forall u | u in r ensures u in all {
        var k :| 0 <= k < |r| && r[k] == u;
        assert all[k] == u;
      }
    }
    r
  }

  /** What `searchUsers` does when the debounce timer fires. */
  datatype SearchEffect = SearchEffect(state: HeaderState, fetched: bool)

  /**
   * `searchUsers`: a query that trims to nothing clears the results and
   * asks nothing; otherwise `/api/users/` is fetched, the results are the
   * capped matches or nothing on failure, and `isSearching` ends false.
   */
  function SearchUsers(s: HeaderState, response: Fetch<seq<ApiUser>>): (r: SearchEffect)
    ensures r.fetched <==> !IsBlank(s.searchQuery)
    ensures !r.fetched ==> r.state == s.(searchResults := [])
    ensures r.fetched ==> !r.state.isSearching
    ensures r.fetched && response.Failed? ==> r.state.searchResults == []
    ensures r.fetched && response.Fetched? ==>
              r.state.searchResults == SearchResults(response.data, s.searchQuery)
    ensures r.state.searchQuery == s.searchQuery && r.state.isVisible == s.isVisible
    ensures |r.state.searchResults| <= MaxResults
  {
    TrimEmptyIffBlank(s.searchQuery);
    if Trim(s.searchQuery) == "" then
      SearchEffect(s.(searchResults := []), false)
    else
      var results := match response
        case Fetched(users) => SearchResults(users, s.searchQuery)
        case Failed => [];
      SearchEffect(s.(searchResults := results, isSearching := false), true)
  }

  /** The clear button: no query, no results. */
  function ClearSearch(s: HeaderState): (r: HeaderState)
    ensures r.searchQuery == "" && r.searchResults == []
    ensures r.isVisible == s.isVisible && r.isSearchFocused == s.isSearchFocused
  {
    s.(searchQuery := "", searchResults := [])
  }

  /** Picking a result: navigate to the profile, then reset the search and close the dropdown. */
  function SelectUser(s: HeaderState, username: string): (r: (string, HeaderState))
    ensures StartsWith(r.0, "/profile/") && r.0[|"/profile/"|..] == username
    ensures r.1.searchQuery == "" && r.1.searchResults == [] && !r.1.isSearchFocused
    ensures r.1.isVisible == s.isVisible
  {
    assert ("/profile/" + username)[|"/profile/"|..] == username;
    ("/profile/" + username, s.(searchQuery := "", searchResults := [], isSearchFocused := false))
  }

  /** After clearing or selecting, the next timer run asks the server nothing and shows nothing. */
  lemma ResetSearchesNothing(s: HeaderState, username: string, response: Fetch<seq<ApiUser>>)
    ensures !SearchUsers(ClearSearch(s), response).fetched
    ensures SearchUsers(ClearSearch(s), response).state.searchResults == []
    ensures !SearchUsers(SelectUser(s, username).1, response).fetched
  {
  }

  /** A result row's avatar: the user's picture, else a 40-pixel generated one. */
  function ResultAvatar(u: ApiUser, encode: string -> string): (r: string)
    ensures u.profilePic != "" ==> Some(r) == ImageUrl(u.profilePic)
    ensures u.profilePic == "" ==> r == UiAvatar(encode(u.username), "&background=556B2F&color=fff&size=40")
    ensures AvatarReadsBack(r, u.profilePic, encode(u.username) + "&background=556B2F&color=fff&size=40")
  {
    AvatarOrReadsBack(u.profilePic, encode(u.username), "&background=556B2F&color=fff&size=40");
    AvatarOr(u.profilePic, UiAvatar(encode(u.username), "&background=556B2F&color=fff&size=40"))
  }

  /** `[first_name, last_name].filter(Boolean).join(' ')`. */
  function FullName(u: ApiUser): (r: string)
    ensures u.firstName != "" && u.lastName != "" ==> r == u.firstName + " " + u.lastName
    ensures u.firstName != "" && u.lastName == "" ==> r == u.firstName
    ensures u.firstName == "" ==> r == u.lastName
    ensures r == "" <==> u.firstName == "" && u.lastName == ""
  {
    var parts := Seqs.Filter([u.firstName, u.lastName], (p: string) => p != "");
    FilterPair(u.firstName, u.lastName);
    JoinTwo(u.firstName, u.lastName);
    Join(parts, ' ')
  }

  lemma JoinTwo(a: string, b: string)
    ensures Join([a, b], ' ') == a + " " + b
  {
    assert [a, b][1..] == [b];
  }

  /** Which of the two names survive `filter(Boolean)`, in order. */
  lemma FilterPair(a: string, b: string)
    ensures var f := Seqs.Filter([a, b], (p: string) => p != "");
            && (a != "" && b != "" ==> f == [a, b])
            && (a != "" && b == "" ==> f == [a])
            && (a == "" && b != "" ==> f == [b])
            && (a == "" && b == "" ==> f == [])
  {
    var p := (p: string) => p != "";
    assert [a, b] == [a] + [b];
    Seqs.FilterConcat([a], [b], p);
    assert [a][1..] == [] && [b][1..] == [];
  }
}

=== FILE: media_urls.dfy ===
/**
 * Turning stored media paths into image sources, and the generated-avatar
 * fallback. The same `getImageUrl` is written out in FollowersModal.jsx,
 * PhotoModal.jsx, ProfileHeader.jsx and PhotoGrid.jsx, and inline in
 * Header.jsx; it is defined once here.
 */
module MediaUrls {
  import opened Wrappers
  import opened Text
  import opened ApiTypes

  /** The backend origin the components hard-code for relative media paths. */
  const MediaOrigin: string := "http://127.0.0.1:8000"

  const AvatarService: string := "https://ui-avatars.com/api/?name="

  /**
   * `getImageUrl(path)`: nothing for a falsy path, an absolute `http…` URL
   * as it is, and anything else taken as a path below the media origin.
   */
  function ImageUrl(path: string): (r: Option<string>)
    ensures r.None? <==> path == ""
    ensures r.Some? ==> StartsWith(r.value, "http")
    // the URL always ends with the stored path
    ensures r.Some? ==> r.value == path || r.value == MediaOrigin + path
    ensures r.Some? ==> (r.value == path <==> StartsWith(path, "http"))
  {
    if path == "" then None
    else if StartsWith(path, "http") then Some(path)
    else
      assert (MediaOrigin + path)[..4] == "http";
      assert |MediaOrigin + path| != |path|;
      Some(MediaOrigin + path)
  }

  /** Normalising an image URL twice is normalising it once. */
  lemma ImageUrlIdempotent(path: string)
    requires path != ""
    ensures ImageUrl(ImageUrl(path).value) == ImageUrl(path)
  {
    var u := ImageUrl(path).value;
    assert u[..4] == "http";
  }

  /** A relative path can be read back from its URL by dropping the origin. */
  lemma ImageUrlRelative(path: string)
    requires path != "" && !StartsWith(path, "http")
    ensures StartsWith(ImageUrl(path).value, MediaOrigin)
    ensures ImageUrl(path).value[|MediaOrigin|..] == path
  {
    assert (MediaOrigin + path)[|MediaOrigin|..] == path;
  }

  /** A ui-avatars image for `name` (already encoded or not, as the caller chooses) with the given options. */
  function UiAvatar(name: string, options: string): (r: string)
    ensures StartsWith(r, AvatarService)
    ensures r[|AvatarService|..] == name + options
  {
    assert (AvatarService + name + options)[..|AvatarService|] == AvatarService;
    assert (AvatarService + name + options)[|AvatarService|..] == name + options;
    AvatarService + name + options
  }

  /** Two generated avatars with the same options are equal only for the same name. */
  lemma UiAvatarInjective(a: string, b: string, options: string)
    requires UiAvatar(a, options) == UiAvatar(b, options)
    ensures a == b
  {
    assert a + options == b + options;
    assert a == (a + options)[..|a|];
    assert b == (b + options)[..|b|];
  }

  /**
   * What can be read back from an avatar source: a stored relative picture
   * never looks like a generated avatar; with no picture, the generated
   * avatar's query carries the name and options; with a picture, the
   * source is the picture itself or the media origin followed by it.
   */
  ghost predicate AvatarReadsBack(r: string, pic: string, nameAndOptions: string) {
    && (!StartsWith(pic, "http") ==> (StartsWith(r, AvatarService) <==> pic == ""))
    && (pic == "" ==> StartsWith(r, AvatarService) && r[|AvatarService|..] == nameAndOptions)
    && (pic != "" ==> r == pic || (StartsWith(r, MediaOrigin) && r[|MediaOrigin|..] == pic))
  }

  /**
   * The picture when there is one, the generated avatar otherwise: the
   * shape of every `getAvatarUrl` in the components.
   */
  function AvatarOr(pic: string, fallback: string): (r: string)
    ensures pic != "" ==> Some(r) == ImageUrl(pic)
    ensures pic == "" ==> r == fallback
  {
    ImageUrl(pic).GetOr(fallback)
  }

  /** Every avatar of the components reads back: which of picture or name it came from, and that value. */
  lemma AvatarOrReadsBack(pic: string, name: string, options: string)
    ensures AvatarReadsBack(AvatarOr(pic, UiAvatar(name, options)), pic, name + options)
  {
    var r := AvatarOr(pic, UiAvatar(name, options));
    if pic != "" && !StartsWith(pic, "http") {
      ImageUrlRelative(pic);
      assert r[..|MediaOrigin|] == MediaOrigin;
      assert r[4] != AvatarService[4];
    }
  }

  /**
   * Two paths of the same kind (both absolute or both relative) give the
   * same image source only when they are the same path.
   */
  lemma ImageUrlInjective(a: string, b: string)
    requires a != "" && b != ""
    requires StartsWith(a, "http") == StartsWith(b, "http")
    requires ImageUrl(a) == ImageUrl(b)
    ensures a == b
  {
    if !StartsWith(a, "http") {
      ImageUrlRelative(a);
      ImageUrlRelative(b);
    }
  }

  /** `getImageUrl(photo.public_image || photo.original_image)`: the public image first. */
  function PreferredImage(p: ApiPhoto): (r: Option<string>)
    ensures p.publicImage != "" ==> r == ImageUrl(p.publicImage)
    ensures p.publicImage == "" ==> r == ImageUrl(p.originalImage)
    ensures r.None? <==> p.publicImage == "" && p.originalImage == ""
  {
    ImageUrl(OrElse(p.publicImage, p.originalImage))
  }

  /**
   * The original is shown only when the photo has no public image: with
   * both paths of the same kind, a source that is the original's and not
   * the public image's means the public image is unset.
   */
  lemma OriginalShownOnlyWithoutPublic(p: ApiPhoto)
    requires StartsWith(p.publicImage, "http") == StartsWith(p.originalImage, "http")
    requires p.originalImage != "" && p.originalImage != p.publicImage
    requires PreferredImage(p) == ImageUrl(p.originalImage)
    ensures p.publicImage == ""
  {
    if p.publicImage != "" {
      ImageUrlInjective(p.publicImage, p.originalImage);
    }
  }
}

=== FILE: photo_grid.dfy ===
/**
 * The profile's photo grid (frontend/src/components/profile/PhotoGrid.jsx):
 * the empty state, one tile per photo, and the photo view that opens for
 * the selected tile.
 */
module PhotoGrid {
  import opened Wrappers
  import opened ApiTypes
  import opened MediaUrls

  /** What one grid cell shows. `key` is the React key. */
  datatype Tile = Tile(key: nat, image: Option<string>, likes: int, comments: int, locked: bool)

  datatype GridView =
    | EmptyState(message: string)
    | Tiles(tiles: seq<Tile>)

  /** One cell: the preferred image, counts that default to 0, and the lock for photos needing consent. */
  function TileOf(p: ApiPhoto): (t: Tile)
    ensures t.key == p.id
    ensures t.image == PreferredImage(p)
    ensures t.likes == CountOrZero(p.likesCount) && t.comments == CountOrZero(p.commentsCount)
    ensures t.locked <==> p.requiresConsent
  {
    Tile(p.id, PreferredImage(p), CountOrZero(p.likesCount), CountOrZero(p.commentsCount), p.requiresConsent)
  }

  /** The grid for `photos` (`None` for a null prop). */
  function Render(photos: Option<seq<ApiPhoto>>, isOwnProfile: bool): (r: GridView)
    ensures r.EmptyState? <==> photos.None? || |photos.value| == 0
    // the empty-state text depends on whose profile it is and on nothing else
    ensures r.EmptyState? ==> (r.message == "Share your first photo" <==> isOwnProfile)
    ensures r.EmptyState? ==> (r.message == "No photos to show" <==> !isOwnProfile)
    ensures r.Tiles? ==> |r.tiles| == |photos.value|
    ensures r.Tiles? ==> forall i :: 0 <= i < |photos.value| ==> r.tiles[i] == TileOf(photos.value[i])
  {
    if photos.None? || |photos.value| == 0 then
      EmptyState(if isOwnProfile then "Share your first photo" else "No photos to show")
    else
      Tiles(seq(|photos.value|, i requires 0 <= i < |photos.value| => TileOf(photos.value[i])))
  }

  /** Distinct photo ids give distinct React keys. */
  lemma KeysDistinct(photos: seq<ApiPhoto>, isOwnProfile: bool)
    requires |photos| > 0
    requires forall i, j :: 0 <= i < j < |photos| ==> photos[i].id != photos[j].id
    ensures var tiles := Render(Some(photos), isOwnProfile).tiles;
            forall i, j :: 0 <= i < j < |tiles| ==> tiles[i].key != tiles[j].key
  {
    var tiles := Render(Some(photos), isOwnProfile).tiles;
    forall i, j | 0 <= i < j < |tiles| ensures tiles[i].key != tiles[j].key {
      assert tiles[i] == TileOf(photos[i]) && tiles[j] == TileOf(photos[j]);
    }
  }

  /** The selected photo; the photo view is open exactly while there is one. */
  datatype GridState = GridState(selected: Option<ApiPhoto>)

  function SelectPhoto(s: GridState, p: ApiPhoto): (r: GridState)
    ensures r.selected == Some(p)
  {
    GridState(Some(p))
  }

  /** The photo view's `onClose`. */
  function CloseModal(s: GridState): (r: GridState)
    ensures r.selected.None?
  {
    GridState(None)
  }

  predicate ModalOpen(s: GridState) {
    s.selected.Some?
  }

  /**
   * Clicking tile `i` opens the photo view on that tile's photo: the view
   * shows the image the tile showed, and closing it leaves no photo
   * selected.
   */
  lemma ClickedTileOpensItsPhoto(photos: seq<ApiPhoto>, isOwnProfile: bool, s: GridState, i: nat)
    requires i < |photos|
    ensures var tile := Render(Some(photos), isOwnProfile).tiles[i];
            var chosen := SelectPhoto(s, photos[i]);
            && ModalOpen(chosen)
            && chosen.selected.value.id == tile.key
            && PreferredImage(chosen.selected.value) == tile.image
            && !ModalOpen(CloseModal(chosen))
  {
  }
}

=== FILE: photo_modal.dfy ===
/**
 * The single-photo view (frontend/src/components/profile/PhotoModal.jsx):
 * which image and avatar it shows, how it words the photo's age, who can
 * reach the delete dialog, and what it tells its parent after a delete.
 */
module PhotoModal {
  import opened Wrappers
  import opened Text
  import opened ApiTypes
  import opened MediaUrls
  import DeleteModal

  /** The uploader's picture, else a 48-pixel bold avatar of the uploader's name or of "User". */
  function UploaderAvatar(p: ApiPhoto, encode: string -> string): (r: string)
    ensures var pic := if p.uploader.Some? then p.uploader.value.profilePic else "";
            && (pic != "" ==> Some(r) == ImageUrl(pic))
            && (pic == "" ==> StartsWith(r, AvatarService))
    ensures (p.uploader.None? || (p.uploader.value.profilePic == "" && p.uploader.value.username == "")) ==>
              r == UiAvatar(encode("User"), "&size=48&background=556B2F&color=fff&bold=true")
    ensures p.uploader.Some? && p.uploader.value.profilePic == "" && p.uploader.value.username != "" ==>
              r == UiAvatar(encode(p.uploader.value.username), "&size=48&background=556B2F&color=fff&bold=true")
    ensures var pic := if p.uploader.Some? then p.uploader.value.profilePic else "";
            var name := if p.uploader.Some? && p.uploader.value.username != "" then p.uploader.value.username else "User";
            AvatarReadsBack(r, pic, encode(name) + "&size=48&background=556B2F&color=fff&bold=true")
  {
    var pic := if p.uploader.Some? then p.uploader.value.profilePic else "";
    var name := if p.uploader.Some? then p.uploader.value.username else "";
    AvatarOrReadsBack(pic, encode(OrElse(name, "User")), "&size=48&background=556B2F&color=fff&bold=true");
    AvatarOr(pic, UiAvatar(encode(OrElse(name, "User")), "&size=48&background=556B2F&color=fff&bold=true"))
  }

  /** `Math.floor((now - date) / 1000)` on millisecond timestamps. */
  function ElapsedSeconds(nowMs: int, dateMs: int): (d: int)
    ensures d * 1000 <= nowMs - dateMs < (d + 1) * 1000
  {
    (nowMs - dateMs) / 1000
  }

  /** The wording `formatDate` picks; the calendar date itself comes from `toLocaleDateString`. */
  datatype Age = JustNow | MinutesAgo(n: nat) | HoursAgo(n: nat) | DaysAgo(n: nat) | CalendarDate

  /** The buckets of `formatDate` on an elapsed time of `d` seconds. */
  function FormatDate(d: int): (r: Age)
    ensures r == JustNow <==> d < 60
    ensures r.MinutesAgo? <==> 60 <= d < 3600
    ensures r.HoursAgo? <==> 3600 <= d < 86400
    ensures r.DaysAgo? <==> 86400 <= d < 604800
    ensures r == CalendarDate <==> d >= 604800
    // each count is the whole number of units elapsed, and never rolls over into the next unit
    ensures r.MinutesAgo? ==> 1 <= r.n < 60 && r.n * 60 <= d < (r.n + 1) * 60
    ensures r.HoursAgo? ==> 1 <= r.n < 24 && r.n * 3600 <= d < (r.n + 1) * 3600
    ensures r.DaysAgo? ==> 1 <= r.n < 7 && r.n * 86400 <= d < (r.n + 1) * 86400
  {
    if d < 60 then JustNow
    else if d < 3600 then MinutesAgo(d / 60)
    else if d < 86400 then HoursAgo(d / 3600)
    else if d < 604800 then DaysAgo(d / 86400)
    else CalendarDate
  }

  /** The text on screen; `date` is the locale's short month and day. */
  function AgeText(a: Age, date: string): string {
    match a
    case JustNow => "just now"
    case MinutesAgo(n) => NatToString(n) + "m ago"
    case HoursAgo(n) => NatToString(n) + "h ago"
    case DaysAgo(n) => NatToString(n) + "d ago"
    case CalendarDate => date
  }

  /** The character five from the end of the text: it tells the buckets apart. */
  function UnitMark(a: Age): char {
    match a
    case JustNow => 't'
    case MinutesAgo(_) => 'm'
    case HoursAgo(_) => 'h'
    case DaysAgo(_) => 'd'
    case CalendarDate => ' '
  }

  lemma AgeTextShape(a: Age, date: string)
    requires !a.CalendarDate?
    ensures |AgeText(a, date)| >= 5
    ensures AgeText(a, date)[|AgeText(a, date)| - 5] == UnitMark(a)
    ensures !a.JustNow? ==> AgeText(a, date)[..|AgeText(a, date)| - 5] == NatToString(a.n)
  {
    var s := AgeText(a, date);
    if !a.JustNow? {
      var unit := s[|s| - 5..];
      assert s == NatToString(a.n) + unit;
      assert s[..|s| - 5] == NatToString(a.n);
    }
  }

  /**
   * The relative wording can be read back: two ages that are not shown as
   * a calendar date are worded the same only when they are the same
   * bucket with the same count.
   */
  lemma AgeTextInjective(a1: Age, a2: Age, date: string)
    requires !a1.CalendarDate? && !a2.CalendarDate?
    requires AgeText(a1, date) == AgeText(a2, date)
    ensures a1 == a2
  {
    AgeTextShape(a1, date);
    AgeTextShape(a2, date);
    assert UnitMark(a1) == UnitMark(a2);
    if !a1.JustNow? {
      assert NatToString(a1.n) == NatToString(a2.n);
      ParseIntToString(a1.n);
      ParseIntToString(a2.n);
    }
  }

  function Rank(a: Age): nat {
    match a
    case JustNow => 0
    case MinutesAgo(_) => 1
    case HoursAgo(_) => 2
    case DaysAgo(_) => 3
    case CalendarDate => 4
  }

  /** An older photo never reads as newer: the bucket and the count only grow with elapsed time. */
  lemma FormatDateMonotonic(d1: int, d2: int)
    requires d1 <= d2
    ensures Rank(FormatDate(d1)) <= Rank(FormatDate(d2))
    ensures FormatDate(d1).MinutesAgo? && FormatDate(d2).MinutesAgo? ==> FormatDate(d1).n <= FormatDate(d2).n
    ensures FormatDate(d1).HoursAgo? && FormatDate(d2).HoursAgo? ==> FormatDate(d1).n <= FormatDate(d2).n
    ensures FormatDate(d1).DaysAgo? && FormatDate(d2).DaysAgo? ==> FormatDate(d1).n <= FormatDate(d2).n
  {
    assert d1 / 60 <= d2 / 60;
    assert d1 / 3600 <= d2 / 3600;
    assert d1 / 86400 <= d2 / 86400;
  }

  /** What the photo view shows of its menu and dialog. */
  datatype ModalUi = ModalUi(showOptionsMenu: bool, showDeleteModal: bool)

  const Closed: ModalUi := ModalUi(false, false)

  /** The clicks that change the menu and dialog. */
  datatype UiEvent = ToggleMenu | CopyLink | ChooseDelete | CloseDeleteModal

  /**
   * One click. The menu button exists only on the viewer's own profile and
   * the menu items only while the menu is open; a click on something that
   * is not rendered changes nothing.
   */
  function Step(isOwnProfile: bool, s: ModalUi, e: UiEvent): (r: ModalUi)
    ensures r.showDeleteModal && !s.showDeleteModal ==> isOwnProfile && s.showOptionsMenu && e == ChooseDelete
    ensures r.showOptionsMenu && !s.showOptionsMenu ==> isOwnProfile && e == ToggleMenu
    ensures isOwnProfile && s.showOptionsMenu && e == ChooseDelete ==> r == ModalUi(false, true)
    ensures e == CloseDeleteModal ==> !r.showDeleteModal
  {
    match e
    case ToggleMenu => if isOwnProfile then s.(showOptionsMenu := !s.showOptionsMenu) else s
    case CopyLink => if isOwnProfile && s.showOptionsMenu then s.(showOptionsMenu := false) else s
    case ChooseDelete => if isOwnProfile && s.showOptionsMenu then ModalUi(false, true) else s
    case CloseDeleteModal => s.(showDeleteModal := false)
  }

  function Run(isOwnProfile: bool, s: ModalUi, es: seq<UiEvent>): ModalUi
    decreases |es|
  {
    if |es| == 0 then s else Run(isOwnProfile, Step(isOwnProfile, s, es[0]), es[1..])
  }

  /** On someone else's photo no sequence of clicks ever opens the menu or the delete dialog. */
  lemma {:induction false} OthersCannotDelete(s: ModalUi, es: seq<UiEvent>)
    requires !s.showOptionsMenu && !s.showDeleteModal
    ensures Run(false, s, es) == s
    decreases |es|
  {
    if |es| > 0 {
      OthersCannotDelete(Step(false, s, es[0]), es[1..]);
    }
  }

  /** On one's own photo, two clicks reach the delete dialog. */
  lemma OwnerReachesDelete()
    ensures Run(true, Closed, [ToggleMenu, ChooseDelete]).showDeleteModal
  {
    assert [ToggleMenu, ChooseDelete][1..] == [ChooseDelete];
    assert [ChooseDelete][1..] == [];
  }

  /** The callbacks the photo view makes towards its parent. */
  datatype Notice = PhotoDeleted(photoId: nat) | ModalClosed

  /**
   * The dialog's callbacks as the photo view would receive them: a confirm
   * runs `handleDeleteSuccess`, and a close only hides the dialog, which
   * the parent does not see.
   */
  function ParentNotices(calls: seq<DeleteModal.Call>): (r: seq<Notice>)
    decreases |calls|
  {
    if |calls| == 0 then []
    else
      (match calls[0]
       case Confirm(id) => HandleDeleteSuccess(id)
       case Close => []) + ParentNotices(calls[1..])
  }

  /**
   * With the dialog's confirm callback bound to `handleDeleteSuccess`, a
   * successful delete tells the parent which photo is gone and then closes
   * the view, and a failed one tells the parent nothing.
   */
  lemma DeleteNotifiesParent(s: DeleteModal.DeleteState, photoId: nat, response: DeleteModal.DeleteResponse)
    ensures ParentNotices(DeleteModal.HandleDelete(s, photoId, response).1) ==
              if DeleteModal.Succeeded(response) then [PhotoDeleted(photoId), ModalClosed] else []
  {
    var calls := DeleteModal.HandleDelete(s, photoId, response).1;
    if DeleteModal.Succeeded(response) {
      assert calls[0] == DeleteModal.Confirm(photoId);
      assert calls[1..] == [DeleteModal.Close];
      assert ParentNotices(calls[1..]) == [] + ParentNotices(calls[1..][1..]);
      assert calls[1..][1..] == [];
    }
  }

  /**
   * As the two components are wired, the parent is never told anything,
   * whatever the server answers.
   */
  lemma ParentNeverNotifiedAsWired(s: DeleteModal.DeleteState, photoId: nat, response: DeleteModal.DeleteResponse)
    ensures ParentNotices(DeleteModal.HandleDeleteAsWired(s, photoId, response).1) == []
  {
  }

  /** `handleDeleteSuccess`: the parent learns which photo is gone before the view closes. */
  function HandleDeleteSuccess(photoId: nat): (r: seq<Notice>)
    ensures |r| == 2 && r[|r| - 1] == ModalClosed
    ensures forall k :: 0 <= k < |r| && r[k].PhotoDeleted? ==> r[k].photoId == photoId && k == 0
    ensures PhotoDeleted(photoId) in r
  {
    [PhotoDeleted(photoId), ModalClosed]
  }
}

=== FILE: photo_models.dfy ===
/**
 * The records of the photos app as the services and views use them: a
 * photo with its original and public image, one detected-face row per face
 * found in it, and consent requests addressed to the users recognised in
 * it. backend/photos/models.py is not part of this model; the fields are the
 * ones the services and views read and write.
 */
module PhotoModels {
  import opened Wrappers
  import opened UserModels
  import BoundingBox
  import Seqs

  type PhotoId = nat
  type RequestId = nat

  /** What is on disk for an image field. */
  datatype ImageFile =
    | Missing                           // no file, or the path does not exist
    | Corrupt                           // the file exists but no decoder can read it
    | Image(width: nat, height: nat)

  /** The derived image other users see. */
  datatype PublicImage =
    | NoPublicImage
    | CopyOfOriginal                    // the unblurred copy saved before detection
    | Blurred(boxes: seq<BoundingBox.Box>)  // the original with these boxes blurred

  datatype Photo = Photo(
    id: PhotoId,
    uploader: UserId,
    createdAt: int,
    original: ImageFile,
    publicImage: PublicImage
  )

  /** A `DetectedFace` row: the stored box text and the recognised user, if any. */
  datatype FaceRecord = FaceRecord(photo: PhotoId, box: string, matchedUser: Option<UserId>)

  /** `APPROVED` is the only status the code compares against; `PENDING` is assumed to be the default. */
  datatype ConsentStatus = Pending | Approved | Denied

  datatype ConsentRequest = ConsentRequest(
    id: RequestId,
    photo: PhotoId,
    requestedUser: UserId,
    box: string,
    status: ConsentStatus,
    createdAt: int
  )

  datatype PhotoDb = PhotoDb(
    photos: seq<Photo>,
    faces: seq<FaceRecord>,
    requests: seq<ConsentRequest>,
    nextRequestId: RequestId
  )

  /**
   * Request ids are unique and the counter is past every id handed out, so
   * an id taken from the counter is fresh.
   */
  ghost predicate ValidDb(db: PhotoDb) {
    && (forall q, q' :: q in db.requests && q' in db.requests && q.id == q'.id ==> q == q')
    && (forall q :: q in db.requests ==> q.id < db.nextRequestId)
  }

  /** Appending requests numbered up from the counter, and advancing it past them, keeps the ids fresh. */
  lemma AppendFreshRequests(db: PhotoDb, added: seq<ConsentRequest>)
    requires ValidDb(db)
    requires forall k :: 0 <= k < |added| ==> added[k].id == db.nextRequestId + k
    ensures ValidDb(db.(requests := db.requests + added, nextRequestId := db.nextRequestId + |added|))
  {
    forall q | q in added
      ensures db.nextRequestId <= q.id < db.nextRequestId + |added|
      ensures forall q' :: q' in added && q'.id == q.id ==> q' == q
    {
      var k :| 0 <= k < |added| && added[k] == q;
      forall q' | q' in added && q'.id == q.id ensures q' == q {
        var l :| 0 <= l < |added| && added[l] == q';
      }
    }
  }

  function PhotoCreatedAt(p: Photo): int {
    p.createdAt
  }

  function RequestCreatedAt(r: ConsentRequest): int {
    r.createdAt
  }

  /** The lookup key of a photo. */
  function PhotoHasId(id: PhotoId): Photo -> bool {
    (p: Photo) => p.id == id
  }

  /** `Photo.objects.get(id=id)`, `None` for `DoesNotExist`. */
  function FindPhoto(photos: seq<Photo>, id: PhotoId): (r: Option<Photo>)
    ensures r.Some? ==> r.value in photos && r.value.id == id
    ensures r.None? <==> forall i :: 0 <= i < |photos| ==> photos[i].id != id
  {
    Seqs.Find(photos, PhotoHasId(id))
  }

  /** `ConsentRequest.objects.get(id=id)`, `None` for `DoesNotExist`. */
  function FindRequest(requests: seq<ConsentRequest>, id: RequestId): (r: Option<ConsentRequest>)
    ensures r.Some? ==> r.value in requests && r.value.id == id
    ensures r.None? <==> forall i :: 0 <= i < |requests| ==> requests[i].id != id
  {
    Seqs.Find(requests, RequestHasId(id))
  }

  /** The lookup key of a consent request. */
  function RequestHasId(id: RequestId): ConsentRequest -> bool {
    (q: ConsentRequest) => q.id == id
  }

  /** Saves a new public image on every row of photo `id`; nothing else changes. */
  function SetPublicImage(photos: seq<Photo>, id: PhotoId, img: PublicImage): (r: seq<Photo>)
    ensures |r| == |photos|
    ensures forall i :: 0 <= i < |photos| ==>
              r[i] == if photos[i].id == id then photos[i].(publicImage := img) else photos[i]
  {
    seq(|photos|, i requires 0 <= i < |photos| =>
      if photos[i].id == id then photos[i].(publicImage := img) else photos[i])
  }

  /**
   * Saving a public image is seen through the lookup: photo `id` is found
   * with the new image, every other photo is found as before, and a
   * missing photo stays missing.
   */
  lemma SetPublicImageLookup(photos: seq<Photo>, id: PhotoId, img: PublicImage, other: PhotoId)
    ensures var r := FindPhoto(SetPublicImage(photos, id, img), other);
            if other == id then
              (FindPhoto(photos, id).None? ==> r.None?) &&
              (FindPhoto(photos, id).Some? ==> r == Some(FindPhoto(photos, id).value.(publicImage := img)))
            else r == FindPhoto(photos, other)
  {
    var i := Seqs.FindSameKeys(photos, SetPublicImage(photos, id, img), PhotoHasId(other));
  }

  /** The detected faces of one photo, in creation order. */
  function FacesOf(faces: seq<FaceRecord>, photo: PhotoId): (r: seq<FaceRecord>)
    ensures forall f :: f in r <==> f in faces && f.photo == photo
  {
    Seqs.Filter(faces, (f: FaceRecord) => f.photo == photo)
  }
}

=== FILE: photo_views.dfy ===
/**
 * The photo and consent-request endpoints of backend/photos/views.py: the
 * photo feed, upload, owner-only deletion, a user's own consent requests,
 * and the update that triggers unmasking. Responses are reduced to their
 * HTTP status codes; the database is a `PhotoDb` value.
 */
module PhotoViews {
  import opened Wrappers
  import opened UserModels
  import opened PhotoModels
  import opened Privacy
  import Seqs

  /** `get_queryset`: every photo, newest first. */
  function ListPhotos(db: PhotoDb): (r: seq<Photo>)
    ensures Seqs.SortedDesc(r, PhotoCreatedAt)
    ensures multiset(r) == multiset(db.photos)
  {
    Seqs.SortDesc(db.photos, PhotoCreatedAt)
  }

  /**
   * `perform_create`: the photo is saved with the requesting user as its
   * uploader, and only then processed. `newId` is the primary key the
   * database hands out; `dets` is what the detector reports for the upload.
   */
  method PerformCreate(db: PhotoDb, requester: UserId, newId: PhotoId, createdAt: int, original: ImageFile,
                       users: seq<User>, dets: seq<Detection>, now: int, fault: Fault)
    returns (r: PhotoDb, outcome: ProcessOutcome)
    requires FindPhoto(db.photos, newId).None?
    ensures ValidDb(db) ==> ValidDb(r)
    // one row is added, at the end, and every stored photo, face row and request is kept
    ensures |r.photos| == |db.photos| + 1 && r.photos[..|db.photos|] == db.photos && r.photos[|db.photos|].id == newId
    ensures |r.faces| >= |db.faces| && r.faces[..|db.faces|] == db.faces
    ensures |r.requests| >= |db.requests| && r.requests[..|db.requests|] == db.requests
    ensures FindPhoto(r.photos, newId).Some?
    ensures FindPhoto(r.photos, newId).value.uploader == requester
    ensures FindPhoto(r.photos, newId).value.createdAt == createdAt
    ensures FindPhoto(r.photos, newId).value.original == original
    ensures outcome != PhotoNotFound
    ensures outcome == OriginalMissing <==> original.Missing?
    // an upload whose processing fails after the copy is published unblurred
    ensures outcome == Failed && fault != CopyFails ==> FindPhoto(r.photos, newId).value.publicImage == CopyOfOriginal
    // consent is planned against the requester: they are never asked about their own upload
    ensures outcome == Processed ==> |r.requests| >= |db.requests| && r.requests[..|db.requests|] == db.requests
    ensures outcome == Processed ==>
              PlannedRequests(r.requests[|db.requests|..], newId, dets, requester, now)
    ensures outcome == Processed ==>
              forall q :: q in r.requests[|db.requests|..] ==> q.requestedUser != requester
  {
    var photo := Photo(newId, requester, createdAt, original, NoPublicImage);
    var saved := db.(photos := db.photos + [photo]);
    assert ValidDb(db) ==> ValidDb(saved);
    Seqs.FindAppended(db.photos, photo, PhotoHasId(newId));
    r, outcome := ProcessPhotoForFaces(saved, newId, users, dets, now, fault);
    AppendedRowKept(db.photos, photo, saved.photos, r.photos);
    FindPhotoKeepsOriginal(saved.photos, newId, r.photos);
    if outcome == Failed && fault != CopyFails {
      SetPublicImageLookup(saved.photos, newId, CopyOfOriginal, newId);
    }
    if outcome == Processed {
      UploaderNeverAsked(r.requests[|db.requests|..], newId, dets, requester, now);
    }
  }

  /**
   * A photo appended under a fresh id and then processed leaves the rows
   * stored before it exactly as they were, and stays last.
   */
  lemma AppendedRowKept(before: seq<Photo>, photo: Photo, saved: seq<Photo>, after: seq<Photo>)
    requires FindPhoto(before, photo.id).None?
    requires saved == before + [photo]
    requires |after| == |saved|
    requires forall i :: 0 <= i < |saved| && saved[i].id != photo.id ==> after[i] == saved[i]
    requires forall i :: 0 <= i < |saved| ==> after[i] == saved[i].(publicImage := after[i].publicImage)
    ensures |after| == |before| + 1 && after[..|before|] == before && after[|before|].id == photo.id
  {
    forall i | 0 <= i < |before| ensures after[i] == before[i] {
      assert saved[i] == before[i];
    }
    assert saved[|before|] == photo;
  }

  /**
   * Processing only rewrites public images, so the photo under `id` keeps
   * its uploader, timestamp and original.
   */
  lemma FindPhotoKeepsOriginal(before: seq<Photo>, id: PhotoId, after: seq<Photo>)
    requires FindPhoto(before, id).Some?
    requires |after| == |before|
    requires forall i :: 0 <= i < |before| ==> after[i] == before[i].(publicImage := after[i].publicImage)
    ensures FindPhoto(after, id).Some?
    ensures FindPhoto(after, id).value == FindPhoto(before, id).value.(publicImage := FindPhoto(after, id).value.publicImage)
  {
    var i := Seqs.FindIndex(before, PhotoHasId(id));
    forall j | 0 <= j < i ensures !PhotoHasId(id)(after[j]) {
      assert after[j].id == before[j].id;
    }
    assert after[i].id == id;
    Seqs.FindFirst(after, PhotoHasId(id), i);
  }

  /** Removes the photo and everything that cascades from it: its face rows and its consent requests. */
  function DeletePhoto(db: PhotoDb, photoId: PhotoId): (r: PhotoDb)
    ensures FindPhoto(r.photos, photoId).None?
    ensures forall p :: p in r.photos <==> p in db.photos && p.id != photoId
    ensures forall f :: f in r.faces <==> f in db.faces && f.photo != photoId
    ensures forall q :: q in r.requests <==> q in db.requests && q.photo != photoId
    ensures r.nextRequestId == db.nextRequestId
  {
    var photos := Seqs.Filter(db.photos, (p: Photo) => p.id != photoId);
    assert forall i :: 0 <= i < |photos| ==> photos[i] in photos;
    PhotoDb(photos,
            Seqs.Filter(db.faces, (f: FaceRecord) => f.photo != photoId),
            Seqs.Filter(db.requests, (q: ConsentRequest) => q.photo != photoId),
            db.nextRequestId)
  }

  /**
   * `destroy`: 404 for an unknown photo, 403 for anyone but the uploader
   * (nothing changes), 204 for the uploader (the photo and its dependants
   * are gone). The image files are deleted too; files are not modelled.
   */
  function Destroy(db: PhotoDb, requester: UserId, photoId: PhotoId): (r: (int, PhotoDb))
    ensures FindPhoto(db.photos, photoId).None? ==> r == (404, db)
    ensures FindPhoto(db.photos, photoId).Some? && FindPhoto(db.photos, photoId).value.uploader != requester ==>
              r == (403, db)
    ensures r.0 == 204 <==> FindPhoto(db.photos, photoId).Some? && FindPhoto(db.photos, photoId).value.uploader == requester
    ensures r.0 == 204 ==> FindPhoto(r.1.photos, photoId).None?
    // the uploader's delete touches no other photo
    ensures r.0 == 204 ==> forall p :: p in db.photos && p.id != photoId ==> p in r.1.photos
    // and it cascades: the photo's face rows and consent requests go with it, and nothing else
    ensures r.0 == 204 ==> r.1 == DeletePhoto(db, photoId)
    ensures r.0 != 204 ==> r.1 == db
    ensures ValidDb(db) ==> ValidDb(r.1)
  {
    match FindPhoto(db.photos, photoId)
    case None => (404, db)
    case Some(photo) =>
      if photo.uploader != requester then (403, db)
      else (204, DeletePhoto(db, photoId))
  }

  function RequestedBy(user: UserId): ConsentRequest -> bool {
    (q: ConsentRequest) => q.requestedUser == user
  }

  /** `ConsentRequestViewSet.get_queryset`: the requester's own requests, newest first. */
  function ConsentQueryset(requests: seq<ConsentRequest>, user: UserId): (r: seq<ConsentRequest>)
    ensures forall q :: q in r <==> q in requests && q.requestedUser == user
    ensures Seqs.SortedDesc(r, RequestCreatedAt)
    // each of the user's rows exactly as often as it is stored
    ensures multiset(r) == multiset(Seqs.Filter(requests, RequestedBy(user)))
  {
    var own := Seqs.Filter(requests, RequestedBy(user));
    var sorted := Seqs.SortDesc(own, RequestCreatedAt);
    assert forall q :: q in sorted <==> q in own by {
      forall q ensures q in sorted <==> q in own {
        Seqs.SortDescMembers(own, RequestCreatedAt, q);
      }
    }
    sorted
  }

  /** Saves a new status on every request row with the id. */
  function SetStatus(requests: seq<ConsentRequest>, id: RequestId, status: ConsentStatus): (r: seq<ConsentRequest>)
    ensures |r| == |requests|
    ensures forall i :: 0 <= i < |requests| ==>
              r[i] == if requests[i].id == id then requests[i].(status := status) else requests[i]
  {
    seq(|requests|, i requires 0 <= i < |requests| =>
      if requests[i].id == id then requests[i].(status := status) else requests[i])
  }

  /**
   * Saving a status is seen through the lookup: request `id` is found with
   * the new status, every other id is found as before, and a missing
   * request stays missing.
   */
  lemma SetStatusLookup(requests: seq<ConsentRequest>, id: RequestId, status: ConsentStatus, other: RequestId)
    ensures var r := FindRequest(SetStatus(requests, id, status), other);
            if other == id then
              (FindRequest(requests, id).None? ==> r.None?) &&
              (FindRequest(requests, id).Some? ==> r == Some(FindRequest(requests, id).value.(status := status)))
            else r == FindRequest(requests, other)
  {
    var i := Seqs.FindSameKeys(requests, SetStatus(requests, id, status), RequestHasId(other));
  }

  /** Saving a status keeps each row's id, and rows that were equal stay equal. */
  lemma SetStatusRows(before: seq<ConsentRequest>, id: RequestId, status: ConsentStatus, i: nat, j: nat)
    requires i < |before| && j < |before|
    ensures SetStatus(before, id, status)[i].id == before[i].id
    ensures before[i] == before[j] ==> SetStatus(before, id, status)[i] == SetStatus(before, id, status)[j]
  {
  }

  /** Saving a status keeps every id, so request ids stay unique and fresh. */
  lemma SetStatusKeepsValid(db: PhotoDb, id: RequestId, status: ConsentStatus)
    requires ValidDb(db)
    ensures ValidDb(db.(requests := SetStatus(db.requests, id, status)))
  {
    var before := db.requests;
    var r := SetStatus(before, id, status);
    forall q | q in r
      ensures q.id < db.nextRequestId
    {
      var i :| 0 <= i < |r| && r[i] == q;
      SetStatusRows(before, id, status, i, i);
      assert before[i] in before;
    }
    forall q, q' | q in r && q' in r && q.id == q'.id
      ensures q == q'
    {
      var i :| 0 <= i < |r| && r[i] == q;
      var j :| 0 <= j < |r| && r[j] == q';
      SetStatusRows(before, id, status, i, j);
      SetStatusRows(before, id, status, j, i);
      assert before[i] in before && before[j] in before;
    }
  }

  datatype UpdateResult = UpdateResult(status: int, db: PhotoDb, unmaskTriggered: bool)

  /**
   * `perform_update` behind the viewset's object lookup: a request outside
   * the requester's own queryset is a 404 and nothing changes; otherwise
   * the (possibly absent, as in a PATCH without it) new status is saved,
   * and unmasking runs exactly when the saved status is APPROVED.
   */
  function PerformUpdate(db: PhotoDb, requester: UserId, requestId: RequestId, newStatus: Option<ConsentStatus>,
                         users: seq<User>): (r: UpdateResult)
    ensures FindRequest(ConsentQueryset(db.requests, requester), requestId).None? ==>
              r == UpdateResult(404, db, false)
    ensures r.status == 200 <==> FindRequest(ConsentQueryset(db.requests, requester), requestId).Some?
    // another user's request can never be acted on
    ensures FindRequest(db.requests, requestId).Some? &&
            (forall q :: q in db.requests && q.id == requestId ==> q.requestedUser != requester) ==>
              r.status == 404 && r.db == db
    ensures r.status == 200 ==>
              var saved := newStatus.GetOr(FindRequest(ConsentQueryset(db.requests, requester), requestId).value.status);
              && r.db.requests == SetStatus(db.requests, requestId, saved)
              && (r.unmaskTriggered <==> saved == Approved)
    ensures r.db.faces == db.faces
    ensures r.db.nextRequestId == db.nextRequestId
    ensures !r.unmaskTriggered ==> r.db.photos == db.photos
    // unmasking touches only the public image of the request's own photo
    ensures |r.db.photos| == |db.photos|
    ensures forall i :: 0 <= i < |db.photos| && r.db.photos[i] != db.photos[i] ==>
              r.unmaskTriggered && FindRequest(db.requests, requestId).Some? &&
              db.photos[i].id == FindRequest(db.requests, requestId).value.photo &&
              r.db.photos[i] == db.photos[i].(publicImage := r.db.photos[i].publicImage)
  {
    match FindRequest(ConsentQueryset(db.requests, requester), requestId)
    case None => UpdateResult(404, db, false)
    case Some(q) =>
      var saved := newStatus.GetOr(q.status);
      var updated := db.(requests := SetStatus(db.requests, requestId, saved));
      if saved == Approved then
        SetStatusLookup(db.requests, requestId, saved, requestId);
        UpdateResult(200, UnmaskApprovedFace(updated, requestId, users), true)
      else
        UpdateResult(200, updated, false)
  }

  /**
   * Approving one's own request unblurs one's faces in that photo: the
   * requester becomes an approved user of the photo, its public image is
   * regenerated from the updated requests, and no face of the photo matched
   * to the requester is on the blur list any more.
   */
  lemma ApprovalUnblursRequester(db: PhotoDb, requester: UserId, q: ConsentRequest,
                                 newStatus: Option<ConsentStatus>, users: seq<User>)
    requires ValidDb(db)
    requires q in db.requests && q.requestedUser == requester
    requires newStatus == Some(Approved) || (newStatus.None? && q.status == Approved)
    ensures var r := PerformUpdate(db, requester, q.id, newStatus, users);
            && r.status == 200 && r.unmaskTriggered
            && requester in ApprovedUsers(r.db.requests, q.photo)
            && (FindPhoto(db.photos, q.photo).Some? && FindPhoto(db.photos, q.photo).value.original.Image? ==>
                  var photo := FindPhoto(db.photos, q.photo).value;
                  && FindPhoto(r.db.photos, q.photo) ==
                       Some(photo.(publicImage := Blurred(Regenerate(photo, r.db.faces, r.db.requests, users).value)))
                  && forall f :: f in r.db.faces && f.photo == q.photo && f.matchedUser == Some(requester) ==>
                       f !in MaskedFaces(FacesOf(r.db.faces, q.photo), photo.uploader, users,
                                         ApprovedUsers(r.db.requests, q.photo)))
  {
    var requestId := q.id;
    var queryset := ConsentQueryset(db.requests, requester);
    assert FindRequest(queryset, requestId).Some?;
    assert FindRequest(queryset, requestId) == Some(q) by {
      var found := FindRequest(queryset, requestId).value;
      assert found in db.requests;
    }
    var r := PerformUpdate(db, requester, requestId, newStatus, users);
    var updated := db.(requests := SetStatus(db.requests, requestId, Approved));
    SetStatusLookup(db.requests, requestId, Approved, requestId);
    assert FindRequest(db.requests, requestId) == Some(q);
    var q1 := q.(status := Approved);
    assert FindRequest(updated.requests, requestId) == Some(q1);
    assert r.db == UnmaskApprovedFace(updated, requestId, users);
    assert q1 in r.db.requests;
    if FindPhoto(db.photos, q.photo).Some? && FindPhoto(db.photos, q.photo).value.original.Image? {
      var photo := FindPhoto(db.photos, q.photo).value;
      var img := Blurred(Regenerate(photo, db.faces, updated.requests, users).value);
      SetPublicImageLookup(db.photos, photo.id, img, q.photo);
      forall f | f in r.db.faces && f.photo == q.photo && f.matchedUser == Some(requester)
        ensures f !in MaskedFaces(FacesOf(r.db.faces, q.photo), photo.uploader, users,
                                  ApprovedUsers(r.db.requests, q.photo))
      {
        ApprovalUnmasks(photo, r.db.faces, r.db.requests, users, q1, f);
      }
    }
  }

  /** Updating a request keeps request ids unique and fresh. */
  lemma PerformUpdateKeepsValid(db: PhotoDb, requester: UserId, requestId: RequestId,
                                newStatus: Option<ConsentStatus>, users: seq<User>)
    requires ValidDb(db)
    ensures ValidDb(PerformUpdate(db, requester, requestId, newStatus, users).db)
  {
    var r := PerformUpdate(db, requester, requestId, newStatus, users);
    if r.status == 200 {
      var q := FindRequest(ConsentQueryset(db.requests, requester), requestId).value;
      SetStatusKeepsValid(db, requestId, newStatus.GetOr(q.status));
    }
  }
}

=== FILE: privacy.dfy ===
/**
 * The privacy pipeline of backend/photos/services.py: which detected faces
 * are blurred in a photo's public image, the detected-face rows and consent
 * requests written when a photo is processed, and the regeneration that an
 * approval triggers.
 *
 * Face detection and embedding matching are an oracle: processing is handed
 * one `Detection` per face the detector found, carrying the integer box and
 * the user the embedding matched, if any. Cropping, blurring and saving the
 * image are an effect whose only observable outcome is the list of boxes
 * blurred into the public image.
 */
module Privacy {
  import opened Wrappers
  import opened UserModels
  import opened PhotoModels
  import opened BoundingBox
  import Seqs

  /** The matched user exists and has chosen the PUBLIC face-sharing mode. */
  predicate IsPublic(users: seq<User>, u: UserId) {
    Lookup(users, u).Some? && Lookup(users, u).value.faceSharingMode == Public
  }

  /** The users with an APPROVED consent request on `photo`. */
  function ApprovedUsers(requests: seq<ConsentRequest>, photo: PhotoId): (r: set<UserId>)
    ensures forall u :: u in r <==>
              exists q :: q in requests && q.photo == photo && q.status == Approved && q.requestedUser == u
  {
    set q | q in requests && q.photo == photo && q.status == Approved :: q.requestedUser
  }

  /**
   * The per-face decision: a face stays visible when it is matched to the
   * uploader, to a PUBLIC user, or to a user who approved a request on this
   * photo. A face with no match is never left visible.
   */
  predicate Unmasked(f: FaceRecord, uploader: UserId, users: seq<User>, approved: set<UserId>) {
    match f.matchedUser
    case None => false
    case Some(u) => u == uploader || IsPublic(users, u) || u in approved
  }

  /** The face rows whose boxes go on the blur list, in row order. */
  function MaskedFaces(faces: seq<FaceRecord>, uploader: UserId, users: seq<User>, approved: set<UserId>)
    : (r: seq<FaceRecord>)
    ensures forall f :: f in r <==> f in faces && !Unmasked(f, uploader, users, approved)
    ensures |r| <= |faces|
    // an unrecognised face is always blurred
    ensures forall f :: f in faces && f.matchedUser.None? ==> f in r
    // the uploader always sees themselves
    ensures forall f :: f in faces && f.matchedUser == Some(uploader) ==> f !in r
    // a PUBLIC user is never blurred
    ensures forall f :: f in faces && f.matchedUser.Some? && IsPublic(users, f.matchedUser.value) ==> f !in r
    // anyone else is blurred exactly when they have not approved
    ensures forall f :: (f in faces && f.matchedUser.Some? && f.matchedUser.value != uploader &&
                         !IsPublic(users, f.matchedUser.value)) ==> (f in r <==> f.matchedUser.value !in approved)
  {
    Seqs.Filter(faces, f => !Unmasked(f, uploader, users, approved))
  }

  /**
   * The boxes the blur loop of `_regenerate_public_image` crops and blurs
   * for the given face rows: each row's box that reads back and fits in the
   * image, and nothing else.
   */
  function BlurList(faces: seq<FaceRecord>, width: int, height: int): (r: seq<Box>)
    ensures forall b :: b in r ==> InImage(b, width, height)
    ensures forall b :: b in r ==> exists f :: f in faces && Parse(f.box) == Some(b)
    ensures forall f :: f in faces && Parse(f.box).Some? && InImage(Parse(f.box).value, width, height)
              ==> Parse(f.box).value in r
  {
    var boxes := seq(|faces|, i requires 0 <= i < |faces| => faces[i].box);
    assert |boxes| == |faces| && forall i :: 0 <= i < |faces| ==> boxes[i] == faces[i].box;
    var blurred := BlurredBoxes(boxes, width, height);
    forall b | b in blurred
      ensures exists f :: f in faces && Parse(f.box) == Some(b)
    {
      var k :| 0 <= k < |blurred| && blurred[k] == b;
      var i :| 0 <= i < |boxes| && Parse(boxes[i]) == Some(blurred[k]);
      assert faces[i] in faces;
    }
    forall f | f in faces && Parse(f.box).Some? && InImage(Parse(f.box).value, width, height)
      ensures Parse(f.box).value in blurred
    {
      var i :| 0 <= i < |faces| && faces[i] == f;
      assert boxes[i] == f.box;
    }
    blurred
  }

  /**
   * `_regenerate_public_image`: the boxes blurred into the new public image,
   * or `None` when the original is missing or cannot be opened and the
   * public image is left as it was.
   */
  function Regenerate(photo: Photo, faces: seq<FaceRecord>, requests: seq<ConsentRequest>, users: seq<User>)
    : (r: Option<seq<Box>>)
    ensures r.None? <==> !photo.original.Image?
    ensures r.Some? ==> forall b :: b in r.value ==> InImage(b, photo.original.width, photo.original.height)
    // only boxes of masked faces of this photo are blurred
    ensures r.Some? ==> forall b :: b in r.value ==>
              exists f :: f in faces && f.photo == photo.id &&
                          !Unmasked(f, photo.uploader, users, ApprovedUsers(requests, photo.id)) &&
                          Parse(f.box) == Some(b)
    // every masked face of this photo whose box reads back and fits is blurred
    ensures r.Some? ==> forall f ::
              (f in faces && f.photo == photo.id &&
               !Unmasked(f, photo.uploader, users, ApprovedUsers(requests, photo.id)) &&
               Parse(f.box).Some? && InImage(Parse(f.box).value, photo.original.width, photo.original.height))
              ==> Parse(f.box).value in r.value
  {
    match photo.original
    case Image(width, height) =>
      Some(BlurList(MaskedFaces(FacesOf(faces, photo.id), photo.uploader, users, ApprovedUsers(requests, photo.id)),
                    width, height))
    case _ => None
  }

  /** When every face of a photo is unmasked, the regenerated public image blurs nothing. */
  lemma NothingBlurredWhenAllUnmasked(photo: Photo, faces: seq<FaceRecord>, requests: seq<ConsentRequest>, users: seq<User>)
    requires photo.original.Image?
    requires forall f :: f in faces && f.photo == photo.id ==>
               Unmasked(f, photo.uploader, users, ApprovedUsers(requests, photo.id))
    ensures Regenerate(photo, faces, requests, users) == Some([])
  {
  }

  /**
   * An approval on this photo unblurs every face matched to the approving
   * user: such a face is not on the blur list any more.
   */
  lemma ApprovalUnmasks(photo: Photo, faces: seq<FaceRecord>, requests: seq<ConsentRequest>, users: seq<User>,
                        q: ConsentRequest, f: FaceRecord)
    requires q in requests && q.photo == photo.id && q.status == Approved
    requires f in faces && f.photo == photo.id && f.matchedUser == Some(q.requestedUser)
    ensures f !in MaskedFaces(FacesOf(faces, photo.id), photo.uploader, users, ApprovedUsers(requests, photo.id))
  {
    assert q.requestedUser in ApprovedUsers(requests, photo.id);
  }

  /**
   * One face as the detector and matcher report it: the integer box and the
   * user record the embedding matched, if any.
   */
  datatype Detection = Detection(box: Box, matchedUser: Option<User>) {
    /** The id stored in the face row's foreign key. */
    function Matched(): Option<UserId> {
      if matchedUser.Some? then Some(matchedUser.value.id) else None
    }
  }

  /** A matched user who is neither the uploader nor PUBLIC needs to be asked. */
  predicate NeedsConsent(d: Detection, uploader: UserId) {
    d.matchedUser.Some? && d.matchedUser.value.id != uploader && d.matchedUser.value.faceSharingMode != Public
  }

  /**
   * When the matched user record is the one the users table holds, the
   * two decisions agree: processing asks a matched user for consent
   * exactly when that user's face is blurred while no one has approved.
   */
  lemma AskedExactlyWhenMasked(d: Detection, photo: PhotoId, uploader: UserId, users: seq<User>)
    requires d.matchedUser.Some? ==> Lookup(users, d.matchedUser.value.id) == d.matchedUser
    ensures NeedsConsent(d, uploader) <==>
              d.matchedUser.Some? && !Unmasked(FaceRecord(photo, Format(d.box), d.Matched()), uploader, users, {})
  {
  }

  /** The ids of the users some of `targets` are matched to. */
  function AskedUsers(targets: seq<Detection>): (r: set<UserId>)
    ensures forall u :: u in r <==> exists k :: 0 <= k < |targets| && targets[k].Matched() == Some(u)
  {
    set k | 0 <= k < |targets| && targets[k].Matched().Some? :: targets[k].Matched().value
  }

  lemma AskedUsersSnoc(targets: seq<Detection>, d: Detection)
    requires d.matchedUser.Some?
    ensures AskedUsers(targets + [d]) == AskedUsers(targets) + {d.Matched().value}
  {
    var after := targets + [d];
    forall u | u in AskedUsers(after) ensures u in AskedUsers(targets) + {d.Matched().value} {
      var k :| 0 <= k < |after| && after[k].Matched() == Some(u);
      if k < |targets| {
        assert after[k] == targets[k];
      }
    }
    forall u | u in AskedUsers(targets) ensures u in AskedUsers(after) {
      var k :| 0 <= k < |targets| && targets[k].Matched() == Some(u);
      assert after[k] == targets[k];
    }
    assert after[|targets|] == d;
  }

  /**
   * Reference definition of the detections that produce a consent request:
   * walking the detections in order, a detection is taken when its user
   * needs to be asked and has not been asked yet for this photo.
   */
  function FirstRequests(dets: seq<Detection>, uploader: UserId): seq<Detection>
    decreases |dets|
  {
    if |dets| == 0 then []
    else
      var plan := FirstRequests(dets[..|dets| - 1], uploader);
      var d := dets[|dets| - 1];
      if NeedsConsent(d, uploader) && d.Matched().value !in AskedUsers(plan) then plan + [d] else plan
  }

  /** The position of the first detection that needs consent from user `u`, if any. */
  function FirstNeeding(dets: seq<Detection>, uploader: UserId, u: UserId): (r: Option<nat>)
    ensures r.Some? ==> r.value < |dets| && NeedsConsent(dets[r.value], uploader) && dets[r.value].Matched() == Some(u)
    ensures r.Some? ==> forall j :: 0 <= j < r.value ==> !(NeedsConsent(dets[j], uploader) && dets[j].Matched() == Some(u))
    ensures r.None? ==> forall j :: 0 <= j < |dets| ==> !(NeedsConsent(dets[j], uploader) && dets[j].Matched() == Some(u))
    decreases |dets|
  {
    if |dets| == 0 then None
    else if NeedsConsent(dets[0], uploader) && dets[0].Matched() == Some(u) then Some(0)
    else
      match FirstNeeding(dets[1..], uploader, u)
      case None => None
      case Some(i) => Some(i + 1)
  }

  /** `d` is the first detection that needs consent from its matched user. */
  predicate FirstOfUser(dets: seq<Detection>, uploader: UserId, d: Detection) {
    d.matchedUser.Some? &&
    var first := FirstNeeding(dets, uploader, d.matchedUser.value.id);
    first.Some? && dets[first.value] == d
  }

  /** Looking at more detections does not change which one came first. */
  lemma FirstNeedingPrefix(dets: seq<Detection>, n: nat, uploader: UserId, u: UserId)
    requires n <= |dets| && FirstNeeding(dets[..n], uploader, u).Some?
    ensures FirstNeeding(dets, uploader, u) == FirstNeeding(dets[..n], uploader, u)
  {
    var i := FirstNeeding(dets[..n], uploader, u).value;
    assert dets[..n][i] == dets[i];
  }

  /** The planned requests are for users who need to be asked, each user once. */
  lemma {:induction false} FirstRequestsSound(dets: seq<Detection>, uploader: UserId)
    ensures forall x :: x in FirstRequests(dets, uploader) ==> x in dets && NeedsConsent(x, uploader)
    ensures forall k, l :: 0 <= k < l < |FirstRequests(dets, uploader)| ==>
              FirstRequests(dets, uploader)[k].Matched() != FirstRequests(dets, uploader)[l].Matched()
    decreases |dets|
  {
    if |dets| > 0 {
      var n := |dets|;
      var pre := dets[..n - 1];
      var plan := FirstRequests(pre, uploader);
      var d := dets[n - 1];
      FirstRequestsSound(pre, uploader);
      assert forall x :: x in pre ==> x in dets;
      if NeedsConsent(d, uploader) && d.Matched().value !in AskedUsers(plan) {
        var r := plan + [d];
        forall k | 0 <= k < |plan| ensures plan[k].Matched() != d.Matched() {
          assert plan[k] in plan;
          assert plan[k].Matched().value in AskedUsers(plan);
        }
        assert forall k :: 0 <= k < |plan| ==> r[k] == plan[k];
        assert r[|plan|] == d;
      }
    }
  }

  /** Every user who needs to be asked is among the planned requests. */
  lemma {:induction false} FirstRequestsComplete(dets: seq<Detection>, uploader: UserId)
    ensures forall i :: 0 <= i < |dets| && NeedsConsent(dets[i], uploader) ==>
              dets[i].Matched().value in AskedUsers(FirstRequests(dets, uploader))
    decreases |dets|
  {
    if |dets| > 0 {
      var n := |dets|;
      var pre := dets[..n - 1];
      var plan := FirstRequests(pre, uploader);
      var d := dets[n - 1];
      FirstRequestsComplete(pre, uploader);
      assert forall j :: 0 <= j < n - 1 ==> pre[j] == dets[j];
      if NeedsConsent(d, uploader) && d.Matched().value !in AskedUsers(plan) {
        AskedUsersSnoc(plan, d);
      }
    }
  }

  /** Each planned request is taken at its user's first face that needs consent. */
  lemma {:induction false} FirstRequestsFirst(dets: seq<Detection>, uploader: UserId)
    ensures forall d :: d in FirstRequests(dets, uploader) ==> FirstOfUser(dets, uploader, d)
    decreases |dets|
  {
    if |dets| > 0 {
      var n := |dets|;
      var pre := dets[..n - 1];
      var plan := FirstRequests(pre, uploader);
      var d := dets[n - 1];
      FirstRequestsFirst(pre, uploader);
      forall x | x in plan ensures FirstOfUser(dets, uploader, x) {
        assert FirstOfUser(pre, uploader, x);
        var u := x.matchedUser.value.id;
        FirstNeedingPrefix(dets, n - 1, uploader, u);
        assert pre[FirstNeeding(pre, uploader, u).value] == dets[FirstNeeding(pre, uploader, u).value];
      }
      if NeedsConsent(d, uploader) && d.Matched().value !in AskedUsers(plan) {
        FirstRequestsComplete(pre, uploader);
        assert FirstOfUser(dets, uploader, d) by {
          var u := d.matchedUser.value.id;
          forall j | 0 <= j < n - 1 && NeedsConsent(dets[j], uploader)
            ensures dets[j].Matched() != Some(u)
          {
            assert pre[j] == dets[j];
            assert dets[j].Matched().value in AskedUsers(plan);
          }
          assert NeedsConsent(dets[n - 1], uploader) && dets[n - 1].Matched() == Some(u);
        }
      }
    }
  }

  /**
   * The planning loop of photo processing: the detections that produce a
   * consent request, in detection order. The loop keeps the set of users
   * already asked for this photo.
   */
  method PlanConsentRequests(dets: seq<Detection>, uploader: UserId)
    returns (targets: seq<Detection>)
    ensures forall x :: x in targets ==> x in dets && NeedsConsent(x, uploader)
    // at most one request per user
    ensures forall k, l :: 0 <= k < l < |targets| ==> targets[k].Matched() != targets[l].Matched()
    // every user who needs to be asked is asked
    ensures forall i :: 0 <= i < |dets| && NeedsConsent(dets[i], uploader) ==>
              dets[i].Matched().value in AskedUsers(targets)
    // the request carries the box of that user's first face
    ensures forall x :: x in targets ==> FirstOfUser(dets, uploader, x)
  {
    targets := [];
    var found: set<UserId> := {};
    for i := 0 to |dets|
      invariant targets == FirstRequests(dets[..i], uploader)
      invariant found == AskedUsers(targets)
    {
      var d := dets[i];
      assert dets[..i + 1][..i] == dets[..i];
      if NeedsConsent(d, uploader) && d.Matched().value !in found {
        AskedUsersSnoc(targets, d);
        targets := targets + [d];
        found := found + {d.Matched().value};
      }
    }
    assert dets[..|dets|] == dets;
    FirstRequestsSound(dets, uploader);
    FirstRequestsComplete(dets, uploader);
    FirstRequestsFirst(dets, uploader);
  }

  /** One PENDING request per target detection, ids counting up from `nextId`. */
  function RequestRows(photo: PhotoId, targets: seq<Detection>, nextId: RequestId, now: int): (r: seq<ConsentRequest>)
    requires forall k :: 0 <= k < |targets| ==> targets[k].Matched().Some?
    ensures |r| == |targets|
    ensures forall k :: 0 <= k < |targets| ==>
              r[k].id == nextId + k && r[k].photo == photo && Some(r[k].requestedUser) == targets[k].Matched() &&
              Parse(r[k].box) == Some(targets[k].box) && r[k].status == ConsentStatus.Pending && r[k].createdAt == now
  {
    forall k | 0 <= k < |targets| ensures Parse(Format(targets[k].box)) == Some(targets[k].box) {
      ParseFormat(targets[k].box);
    }
    seq(|targets|, k requires 0 <= k < |targets| =>
      ConsentRequest(nextId + k, photo, targets[k].Matched().value, Format(targets[k].box), ConsentStatus.Pending, now))
  }

  /**
   * What processing promises about the consent requests it adds for a
   * photo: PENDING requests stamped `now`, each for a user who needs to be
   * asked and carrying the box of that user's first such face, at most one
   * per user, and one for every user who needs to be asked.
   */
  ghost predicate PlannedRequests(rows: seq<ConsentRequest>, photo: PhotoId, dets: seq<Detection>, uploader: UserId, now: int) {
    && (forall k :: 0 <= k < |rows| ==>
          rows[k].photo == photo && rows[k].status == ConsentStatus.Pending && rows[k].createdAt == now)
    && (forall k :: 0 <= k < |rows| ==>
          var first := FirstNeeding(dets, uploader, rows[k].requestedUser);
          first.Some? && Parse(rows[k].box) == Some(dets[first.value].box))
    && (forall k, l :: 0 <= k < l < |rows| ==> rows[k].requestedUser != rows[l].requestedUser)
    && (forall i :: 0 <= i < |dets| && NeedsConsent(dets[i], uploader) ==>
          exists k :: 0 <= k < |rows| && Some(rows[k].requestedUser) == dets[i].Matched())
  }

  /** Planned requests never ask the uploader about their own photo. */
  lemma UploaderNeverAsked(rows: seq<ConsentRequest>, photo: PhotoId, dets: seq<Detection>, uploader: UserId, now: int)
    requires PlannedRequests(rows, photo, dets, uploader, now)
    ensures forall q :: q in rows ==> q.requestedUser != uploader
  {
    forall q | q in rows ensures q.requestedUser != uploader {
      var k :| 0 <= k < |rows| && rows[k] == q;
      assert FirstNeeding(dets, uploader, q.requestedUser).Some?;
    }
  }

  /**
   * The consent requests processing creates for one photo: one PENDING
   * request per user who needs to be asked, carrying the box of that user's
   * first face, with consecutive ids from `nextId`.
   */
  method ConsentRows(photo: PhotoId, dets: seq<Detection>, uploader: UserId, nextId: RequestId, now: int)
    returns (rows: seq<ConsentRequest>)
    ensures PlannedRequests(rows, photo, dets, uploader, now)
    // ids are handed out from the counter, one per request
    ensures forall k :: 0 <= k < |rows| ==> rows[k].id == nextId + k
  {
    var targets := PlanConsentRequests(dets, uploader);
    forall k | 0 <= k < |targets|
      ensures targets[k].Matched().Some? && FirstOfUser(dets, uploader, targets[k])
    {
      assert targets[k] in targets;
    }
    rows := RequestRows(photo, targets, nextId, now);
    forall k | 0 <= k < |rows|
      ensures var first := FirstNeeding(dets, uploader, rows[k].requestedUser);
              first.Some? && Parse(rows[k].box) == Some(dets[first.value].box)
    {
      assert rows[k].requestedUser == targets[k].matchedUser.value.id;
    }
    forall i | 0 <= i < |dets| && NeedsConsent(dets[i], uploader)
      ensures exists k :: 0 <= k < |rows| && Some(rows[k].requestedUser) == dets[i].Matched()
    {
      assert dets[i].Matched().value in AskedUsers(targets);
      var k :| 0 <= k < |targets| && targets[k].Matched() == dets[i].Matched();
      assert Some(rows[k].requestedUser) == dets[i].Matched();
    }
  }

  /** How far `process_photo_for_faces` got. */
  datatype ProcessOutcome =
    | PhotoNotFound      // no photo with that id
    | OriginalMissing    // the original image file is not there
    | ImageUnreadable    // the public copy was saved, but the original cannot be decoded
    | NoFacesDetected    // the public copy was saved and the detector found nothing
    | Failed             // an exception was raised inside the outer try, logged and swallowed
    | Processed          // face rows and consent requests written, public image regenerated

  /**
   * Where an exception interrupts processing, if anywhere. Which step
   * raises is decided by the file system, the database and the detector;
   * the model takes it as given.
   */
  datatype Fault =
    | NoFault
    | CopyFails          // saving the unblurred public copy raises
    | LoadFails          // loading the known encodings or running the detector raises
    | RowFails(k: nat)   // writing the rows of detection `k` raises; earlier detections' rows stay

  /** The detected-face row written for each detection, in detection order. */
  function FaceRows(photo: PhotoId, dets: seq<Detection>): (r: seq<FaceRecord>)
    ensures |r| == |dets|
    ensures forall i :: 0 <= i < |dets| ==>
              r[i].photo == photo && r[i].matchedUser == dets[i].Matched() && Parse(r[i].box) == Some(dets[i].box)
  {
    forall i | 0 <= i < |dets| ensures Parse(Format(dets[i].box)) == Some(dets[i].box) {
      ParseFormat(dets[i].box);
    }
    seq(|dets|, i requires 0 <= i < |dets| => FaceRecord(photo, Format(dets[i].box), dets[i].Matched()))
  }

  /**
   * `process_photo_for_faces`: the database after processing photo
   * `photoId`, given what the detector reports for it, the clock value
   * `now` stamped on new consent requests and the step, if any, that raises.
   */
  method ProcessPhotoForFaces(db: PhotoDb, photoId: PhotoId, users: seq<User>, dets: seq<Detection>, now: int,
                              fault: Fault)
    returns (r: PhotoDb, outcome: ProcessOutcome)
    ensures ValidDb(db) ==> ValidDb(r)
    // whatever the outcome, only this photo's row is rewritten and rows are only ever appended
    ensures |r.photos| == |db.photos|
    ensures forall i :: 0 <= i < |db.photos| && db.photos[i].id != photoId ==> r.photos[i] == db.photos[i]
    ensures forall i :: 0 <= i < |db.photos| ==> r.photos[i] == db.photos[i].(publicImage := r.photos[i].publicImage)
    ensures |r.faces| >= |db.faces| && r.faces[..|db.faces|] == db.faces
    ensures |r.requests| >= |db.requests| && r.requests[..|db.requests|] == db.requests
    ensures FindPhoto(db.photos, photoId).None? ==> outcome == PhotoNotFound && r == db
    ensures FindPhoto(db.photos, photoId).Some? && FindPhoto(db.photos, photoId).value.original.Missing? ==>
              outcome == OriginalMissing && r == db
    // a failing copy writes nothing
    ensures (FindPhoto(db.photos, photoId).Some? && !FindPhoto(db.photos, photoId).value.original.Missing? &&
             fault == CopyFails) ==> outcome == Failed && r == db
    // past the file check, the unblurred copy is saved first, and it is what is left when loading fails
    ensures FindPhoto(db.photos, photoId).Some? && !FindPhoto(db.photos, photoId).value.original.Missing? &&
            fault == LoadFails ==>
              outcome == Failed && r == db.(photos := SetPublicImage(db.photos, photoId, CopyOfOriginal))
    ensures FindPhoto(db.photos, photoId).Some? && FindPhoto(db.photos, photoId).value.original.Corrupt? &&
            (fault.NoFault? || fault.RowFails?) ==>
              outcome == ImageUnreadable && r == db.(photos := SetPublicImage(db.photos, photoId, CopyOfOriginal))
    // no faces: no rows, no requests, no regeneration
    ensures FindPhoto(db.photos, photoId).Some? && FindPhoto(db.photos, photoId).value.original.Image? && |dets| == 0 &&
            (fault.NoFault? || fault.RowFails?) ==>
              outcome == NoFacesDetected && r == db.(photos := SetPublicImage(db.photos, photoId, CopyOfOriginal))
    ensures outcome == Processed <==>
              FindPhoto(db.photos, photoId).Some? && FindPhoto(db.photos, photoId).value.original.Image? && |dets| > 0 &&
              (fault.NoFault? || (fault.RowFails? && fault.k >= |dets|))
    // a write failing part-way keeps the rows of the detections before it and the unblurred copy
    ensures FindPhoto(db.photos, photoId).Some? && FindPhoto(db.photos, photoId).value.original.Image? &&
            fault.RowFails? && fault.k < |dets| ==>
              && outcome == Failed
              && r.photos == SetPublicImage(db.photos, photoId, CopyOfOriginal)
              && r.faces == db.faces + FaceRows(photoId, dets[..fault.k])
              && |r.requests| >= |db.requests| && r.requests[..|db.requests|] == db.requests
              && PlannedRequests(r.requests[|db.requests|..], photoId, dets[..fault.k],
                                 FindPhoto(db.photos, photoId).value.uploader, now)
    // exactly one face row per detection, matched or not
    ensures outcome == Processed ==> r.faces == db.faces + FaceRows(photoId, dets)
    ensures outcome == Processed ==>
              |r.requests| >= |db.requests| && r.requests[..|db.requests|] == db.requests
    ensures outcome == Processed ==>
              PlannedRequests(r.requests[|db.requests|..], photoId, dets, FindPhoto(db.photos, photoId).value.uploader, now)
    ensures outcome == Processed ==>
              var photo := FindPhoto(db.photos, photoId).value;
              r.photos == SetPublicImage(db.photos, photoId, Blurred(Regenerate(photo, r.faces, r.requests, users).value))
  {
    var found := FindPhoto(db.photos, photoId);
    if found.None? {
      return db, PhotoNotFound;
    }
    var photo := found.value;
    if photo.original.Missing? {
      return db, OriginalMissing;
    }
    if fault == CopyFails {
      return db, Failed;
    }
    r := db.(photos := SetPublicImage(db.photos, photoId, CopyOfOriginal));
    if fault == LoadFails {
      return r, Failed;
    }
    if photo.original.Corrupt? {
      return r, ImageUnreadable;
    }
    if |dets| == 0 {
      return r, NoFacesDetected;
    }
    var written := if fault.RowFails? && fault.k < |dets| then dets[..fault.k] else dets;
    var asked := ConsentRows(photoId, written, photo.uploader, db.nextRequestId, now);
    if ValidDb(db) {
      AppendFreshRequests(r, asked);
    }
    r := r.(faces := db.faces + FaceRows(photoId, written),
            requests := db.requests + asked,
            nextRequestId := db.nextRequestId + |asked|);
    assert r.requests[..|db.requests|] == db.requests;
    assert r.requests[|db.requests|..] == asked;
    if fault.RowFails? && fault.k < |dets| {
      return r, Failed;
    }
    var blurred := Regenerate(photo, r.faces, r.requests, users);
    r := r.(photos := SetPublicImage(db.photos, photoId, Blurred(blurred.value)));
    outcome := Processed;
  }

  /**
   * `unmask_approved_face`: an APPROVED request regenerates the public image
   * of its photo; any other status, an unknown request or a photo that
   * cannot be found or opened leaves everything as it was.
   */
  function UnmaskApprovedFace(db: PhotoDb, requestId: RequestId, users: seq<User>): (r: PhotoDb)
    ensures r.faces == db.faces && r.requests == db.requests && r.nextRequestId == db.nextRequestId
    ensures FindRequest(db.requests, requestId).None? ==> r == db
    ensures FindRequest(db.requests, requestId).Some? && FindRequest(db.requests, requestId).value.status != Approved ==> r == db
    // only the requested photo's public image can change
    ensures |r.photos| == |db.photos|
    ensures forall i :: 0 <= i < |db.photos| && r.photos[i] != db.photos[i] ==>
              FindRequest(db.requests, requestId).Some? &&
              db.photos[i].id == FindRequest(db.requests, requestId).value.photo &&
              r.photos[i] == db.photos[i].(publicImage := r.photos[i].publicImage)
    ensures FindRequest(db.requests, requestId).Some? && FindRequest(db.requests, requestId).value.status == Approved &&
            FindPhoto(db.photos, FindRequest(db.requests, requestId).value.photo).Some? ==>
              var photo := FindPhoto(db.photos, FindRequest(db.requests, requestId).value.photo).value;
              photo.original.Image? ==>
                r.photos == SetPublicImage(db.photos, photo.id, Blurred(Regenerate(photo, db.faces, db.requests, users).value))
  {
    match FindRequest(db.requests, requestId)
    case None => db
    case Some(q) =>
      if q.status != Approved then db
      else
        match FindPhoto(db.photos, q.photo)
        case None => db
        case Some(photo) =>
          match Regenerate(photo, db.faces, db.requests, users)
          case None => db
          case Some(boxes) => db.(photos := SetPublicImage(db.photos, photo.id, Blurred(boxes)))
  }
}

=== FILE: profile_header.dfy ===
/**
 * The top of a profile page (frontend/src/components/profile/ProfileHeader.jsx):
 * avatar, the action buttons, the three counts and the bio. The component
 * keeps no state; it is one function from its props to what it shows.
 */
module ProfileHeader {
  import opened Wrappers
  import opened Text
  import opened ApiTypes
  import opened MediaUrls
  import Follows
  import UserModels

  /** Own profile: edit and settings. Anyone else's: one follow toggle with its text. */
  datatype Actions = EditAndSettings | FollowToggle(text: string)

  datatype HeaderView = HeaderView(
    avatar: string,
    actions: Actions,
    posts: int,
    followers: int,
    following: int,
    bio: Option<string>
  )

  /** The profile picture, else a 150-pixel bold avatar of the username or of "User". */
  function ProfileAvatar(profile: Option<ApiUser>, encode: string -> string): (r: string)
    ensures profile.Some? && profile.value.profilePic != "" ==> Some(r) == ImageUrl(profile.value.profilePic)
    ensures (profile.None? || profile.value.profilePic == "") ==> StartsWith(r, AvatarService)
    ensures (profile.None? || (profile.value.profilePic == "" && profile.value.username == "")) ==>
              r == UiAvatar(encode("User"), "&size=150&background=556B2F&color=fff&bold=true")
    ensures profile.Some? && profile.value.profilePic == "" && profile.value.username != "" ==>
              r == UiAvatar(encode(profile.value.username), "&size=150&background=556B2F&color=fff&bold=true")
    ensures var pic := if profile.Some? then profile.value.profilePic else "";
            var name := if profile.Some? && profile.value.username != "" then profile.value.username else "User";
            AvatarReadsBack(r, pic, encode(name) + "&size=150&background=556B2F&color=fff&bold=true")
  {
    var pic := if profile.Some? then profile.value.profilePic else "";
    var name := if profile.Some? then profile.value.username else "";
    AvatarOrReadsBack(pic, encode(OrElse(name, "User")), "&size=150&background=556B2F&color=fff&bold=true");
    AvatarOr(pic, UiAvatar(encode(OrElse(name, "User")), "&size=150&background=556B2F&color=fff&bold=true"))
  }

  /** The button row. */
  function ActionsFor(isOwnProfile: bool, isFollowing: bool): (r: Actions)
    ensures r == EditAndSettings <==> isOwnProfile
    ensures !isOwnProfile ==> (r.text == "Following" <==> isFollowing)
    ensures !isOwnProfile ==> (r.text == "Follow" <==> !isFollowing)
  {
    if isOwnProfile then EditAndSettings
    else FollowToggle(if isFollowing then "Following" else "Follow")
  }

  /**
   * Fed the follow status the server keeps, the toggle reads "Following"
   * after any follow of another existing user and "Follow" after any
   * unfollow, whatever the table held before.
   */
  lemma FollowButtonTracksServer(t: seq<Follows.Follow>, userIds: set<UserModels.UserId>,
                                 me: UserModels.UserId, them: UserModels.UserId,
                                 verb: Follows.FollowMethod, now: int)
    requires them in userIds && them != me
    ensures var r := Follows.FollowAction(t, userIds, me, them, verb, now);
            ActionsFor(false, Follows.IsFollowing(r.table, me, them)) ==
              FollowToggle(if verb == Follows.Post then "Following" else "Follow")
  {
  }

  /** Everything the header shows for its props. */
  function Render(profile: Option<ApiUser>, isOwnProfile: bool, isFollowing: bool,
                  followerCount: int, followingCount: int, postCount: int,
                  encode: string -> string): (r: HeaderView)
    ensures r.actions.FollowToggle? <==> !isOwnProfile
    // the counts are shown as given: the header computes none of them
    ensures r.posts == postCount && r.followers == followerCount && r.following == followingCount
    ensures r.bio.Some? <==> profile.Some? && profile.value.bio != ""
    ensures r.bio.Some? ==> r.bio.value == profile.value.bio
    ensures StartsWith(r.avatar, "http")
  {
    var bio := if profile.Some? && profile.value.bio != "" then Some(profile.value.bio) else None;
    var avatar := ProfileAvatar(profile, encode);
    assert StartsWith(avatar, "http") by {
      var pic := if profile.Some? then profile.value.profilePic else "";
      if pic == "" {
        assert StartsWith(avatar, AvatarService);
        assert avatar[..4] == AvatarService[..4];
      }
    }
    HeaderView(avatar, ActionsFor(isOwnProfile, isFollowing), postCount, followerCount, followingCount, bio)
  }
}

=== FILE: seqs.dfy ===
/**
 * Sequence helpers shared by the model: an order-preserving filter (the
 * ORM's `.filter(...)`, JavaScript's `Array.prototype.filter`) and a sort
 * by a descending integer key (the ORM's `.order_by('-created_at')`).
 */
module Seqs {
  import opened Wrappers

  /**
   * The first element of `s` that satisfies `p`, or `None` when there is
   * none: a lookup by key (the ORM's `.get(...)`, `DoesNotExist` as `None`).
   */
  function Find<T>(s: seq<T>, p: T -> bool): (r: Option<T>)
    ensures r.Some? ==> r.value in s && p(r.value)
    ensures r.None? <==> forall i :: 0 <= i < |s| ==> !p(s[i])
    decreases |s|
  {
    if |s| == 0 then None
    else if p(s[0]) then Some(s[0])
    else Find(s[1..], p)
  }

  /** The element found is the first one that satisfies `p`. */
  lemma {:induction false} FindFirst<T>(s: seq<T>, p: T -> bool, i: nat)
    requires i < |s| && p(s[i])
    requires forall j :: 0 <= j < i ==> !p(s[j])
    ensures Find(s, p) == Some(s[i])
    decreases i
  {
    if i > 0 {
      assert !p(s[0]);
      assert forall j :: 0 <= j < i - 1 ==> s[1..][j] == s[j + 1];
      FindFirst(s[1..], p, i - 1);
    }
  }

  /** A found element sits at an index before which nothing satisfies `p`. */
  lemma {:induction false} FindIndex<T>(s: seq<T>, p: T -> bool) returns (i: nat)
    requires Find(s, p).Some?
    ensures i < |s| && s[i] == Find(s, p).value
    ensures forall j :: 0 <= j < i ==> !p(s[j])
    decreases |s|
  {
    if p(s[0]) {
      i := 0;
    } else {
      var k := FindIndex(s[1..], p);
      i := k + 1;
      assert forall j :: 1 <= j < i ==> s[j] == s[1..][j - 1];
    }
  }

  /** Appending an element nothing before it matches makes it the one found. */
  lemma FindAppended<T>(s: seq<T>, x: T, p: T -> bool)
    requires Find(s, p).None? && p(x)
    ensures Find(s + [x], p) == Some(x)
  {
    assert forall j :: 0 <= j < |s| ==> (s + [x])[j] == s[j];
    FindFirst(s + [x], p, |s|);
  }

  /**
   * Two tables of the same length whose rows agree, row by row, on whether
   * they match `p`: a lookup succeeds in one exactly when it succeeds in
   * the other, and then finds the row at the same position `i`.
   */
  lemma FindSameKeys<T>(a: seq<T>, b: seq<T>, p: T -> bool) returns (i: nat)
    requires |a| == |b|
    requires forall k :: 0 <= k < |a| ==> (p(a[k]) <==> p(b[k]))
    ensures Find(a, p).Some? <==> Find(b, p).Some?
    ensures Find(a, p).Some? ==> i < |a| && Find(a, p) == Some(a[i]) && Find(b, p) == Some(b[i])
  {
    if Find(a, p).Some? {
      i := FindIndex(a, p);
      FindFirst(b, p, i);
    } else {
      i := 0;
    }
  }

  /** The elements of `s` that satisfy `p`, in their original order. */
  function Filter<T(==,!new)>(s: seq<T>, p: T -> bool): (r: seq<T>)
    ensures |r| <= |s|
    ensures forall x :: x in r <==> x in s && p(x)
    decreases |s|
  {
    if |s| == 0 then []
    else (if p(s[0]) then [s[0]] else []) + Filter(s[1..], p)
  }

  /** Filtering distributes over concatenation: one element's fate never depends on another. */
  lemma {:induction false} FilterConcat<T(!new)>(a: seq<T>, b: seq<T>, p: T -> bool)
    ensures Filter(a + b, p) == Filter(a, p) + Filter(b, p)
    decreases |a|
  {
    if |a| == 0 {
      assert a + b == b;
    } else {
      assert (a + b)[1..] == a[1..] + b;
      FilterConcat(a[1..], b, p);
    }
  }

  /** Filtering one more element of a prefix appends it exactly when it passes (a loop's step). */
  lemma FilterPrefixStep<T(!new)>(s: seq<T>, n: nat, p: T -> bool)
    requires n < |s|
    ensures Filter(s[..n + 1], p) == Filter(s[..n], p) + (if p(s[n]) then [s[n]] else [])
  {
    assert s[..n + 1] == s[..n] + [s[n]];
    assert [s[n]][1..] == [];
    FilterConcat(s[..n], [s[n]], p);
  }

  /** A filter that every element passes is the identity. */
  lemma {:induction false} FilterKeepsAll<T(!new)>(s: seq<T>, p: T -> bool)
    requires forall i :: 0 <= i < |s| ==> p(s[i])
    ensures Filter(s, p) == s
    decreases |s|
  {
    if |s| > 0 {
      FilterKeepsAll(s[1..], p);
    }
  }

  /** Elements are in non-increasing order of `key` (newest first when `key` is a timestamp). */
  ghost predicate SortedDesc<T>(s: seq<T>, key: T -> int) {
    forall i, j :: 0 <= i < j < |s| ==> key(s[i]) >= key(s[j])
  }

  /** Filtering a sorted sequence keeps it sorted. */
  lemma {:induction false} FilterPreservesSortedDesc<T(!new)>(s: seq<T>, p: T -> bool, key: T -> int)
    requires SortedDesc(s, key)
    ensures SortedDesc(Filter(s, p), key)
    decreases |s|
  {
    if |s| > 0 {
      FilterPreservesSortedDesc(s[1..], p, key);
      var rest := Filter(s[1..], p);
      forall y | y in rest
        ensures key(s[0]) >= key(y)
      {
        var k :| 0 <= k < |s[1..]| && s[1..][k] == y;
        assert s[k + 1] == y;
      }
    }
  }

  /** Inserts `x` into a sequence sorted by descending `key`, before the first element it is not below. */
  function InsertDesc<T(==,!new)>(x: T, s: seq<T>, key: T -> int): (r: seq<T>)
    requires SortedDesc(s, key)
    ensures SortedDesc(r, key)
    ensures multiset(r) == multiset(s) + multiset{x}
    ensures forall y :: y in r ==> y == x || y in s
    decreases |s|
  {
    if |s| == 0 then [x]
    else if key(x) >= key(s[0]) then [x] + s
    else
      var rest := InsertDesc(x, s[1..], key);
      InsertStep(x, s, rest, key);
      [s[0]] + rest
  }

  /** The step case of `InsertDesc`: the head of `s` still dominates after `x` went into its tail. */
  lemma InsertStep<T(!new)>(x: T, s: seq<T>, rest: seq<T>, key: T -> int)
    requires |s| > 0 && SortedDesc(s, key) && key(x) < key(s[0])
    requires SortedDesc(rest, key)
    requires forall y :: y in rest ==> y == x || y in s[1..]
    ensures SortedDesc([s[0]] + rest, key)
    ensures multiset([s[0]] + rest) == multiset(s) + multiset{x} <== multiset(rest) == multiset(s[1..]) + multiset{x}
  {
    forall k | 0 <= k < |rest|
      ensures key(s[0]) >= key(rest[k])
    {
      assert rest[k] in rest;
      if rest[k] != x {
        var m :| 0 <= m < |s[1..]| && s[1..][m] == rest[k];
        assert s[m + 1] == rest[k];
      }
    }
    assert s == [s[0]] + s[1..];
  }

  /** Sorts by descending `key`: the result is ordered and is a permutation of the input. */
  function SortDesc<T(==,!new)>(s: seq<T>, key: T -> int): (r: seq<T>)
    ensures SortedDesc(r, key)
    ensures multiset(r) == multiset(s)
    decreases |s|
  {
    if |s| == 0 then []
    else
      assert s == [s[0]] + s[1..];
      InsertDesc(s[0], SortDesc(s[1..], key), key)
  }

  /** The membership half of a permutation, for callers that only ask "is it there?". */
  lemma SortDescMembers<T(!new)>(s: seq<T>, key: T -> int, x: T)
    ensures x in SortDesc(s, key) <==> x in s
  {
    var r := SortDesc(s, key);
    assert x in r <==> x in multiset(r);
    assert x in s <==> x in multiset(s);
  }

  /** The first `n` elements of `s`, or all of them when there are fewer (JavaScript's `slice(0, n)`). */
  function Take<T>(s: seq<T>, n: nat): (r: seq<T>)
    ensures |r| == if |s| < n then |s| else n
    ensures r <= s
  {
    if |s| <= n then s else s[..n]
  }
}

=== FILE: text.dfy ===
/**
 * String helpers used across the backend and the frontend: decimal
 * rendering and parsing of integers, splitting on a separator, prefix and
 * substring tests, ASCII lower-casing and JavaScript's notion of a blank
 * (whitespace-only) string.
 */
module Text {
  import opened Wrappers

  predicate IsDigit(c: char) {
    '0' <= c <= '9'
  }

  predicate AllDigits(s: string) {
    forall i :: 0 <= i < |s| ==> IsDigit(s[i])
  }

  function DigitValue(c: char): nat
    requires IsDigit(c)
  {
    (c as int) - ('0' as int)
  }

  function DigitChar(d: nat): (c: char)
    requires d < 10
    ensures IsDigit(c) && DigitValue(c) == d
  {
    ((('0' as int) + d) as char)
  }

  /** The value of a string of decimal digits (most significant first). */
  function DigitsValue(s: string): nat
    requires AllDigits(s)
    decreases |s|
  {
    if |s| == 0 then 0
    else 10 * DigitsValue(s[..|s| - 1]) + DigitValue(s[|s| - 1])
  }

  /** Decimal rendering of a natural number, as Python's `str` and JavaScript's template literals produce it. */
  function NatToString(n: nat): (s: string)
    ensures |s| >= 1
    ensures AllDigits(s)
    ensures s[0] == '0' ==> n == 0
    decreases n
  {
    if n < 10 then [DigitChar(n)]
    else NatToString(n / 10) + [DigitChar(n % 10)]
  }

  /** Decimal rendering of an integer: a leading `-` for negatives, no sign otherwise. */
  function IntToString(i: int): (s: string)
    ensures |s| >= 1
    ensures s[0] == '-' <==> i < 0
    ensures forall k :: 0 <= k < |s| ==> s[k] != ','
  {
    if i < 0 then "-" + NatToString(-i) else NatToString(i)
  }

  /** Reading back what `NatToString` wrote gives the number. */
  lemma {:induction false} NatToStringValue(n: nat)
    ensures DigitsValue(NatToString(n)) == n
    decreases n
  {
    if n >= 10 {
      NatToStringValue(n / 10);
      var s := NatToString(n);
      assert s[..|s| - 1] == NatToString(n / 10);
    }
  }

  /** Length of the run of digits at the start of `s`. */
  function DigitRunLength(s: string): (k: nat)
    ensures k <= |s|
    ensures AllDigits(s[..k])
    ensures k < |s| ==> !IsDigit(s[k])
    decreases |s|
  {
    if |s| == 0 || !IsDigit(s[0]) then 0
    else
      var k := 1 + DigitRunLength(s[1..]);
      assert s[..k] == [s[0]] + s[1..][..k - 1];
      k
  }

  /**
   * Python's `int(float(s))` for an unsigned numeral: digits, optionally a
   * point and more digits, at least one digit in all; the fraction is
   * dropped. `None` stands for the `ValueError` Python raises.
   */
  function ParseUnsigned(s: string): Option<nat> {
    var k := DigitRunLength(s);
    var rest := s[k..];
    if |rest| == 0 then
      (if k == 0 then None else Some(DigitsValue(s[..k])))
    else if rest[0] == '.' && AllDigits(rest[1..]) && (k > 0 || |rest| > 1) then
      Some(DigitsValue(s[..k]))
    else None
  }

  /** Python's `int(float(s))`: an optional sign, then an unsigned numeral; truncation is toward zero. */
  function ParseDecimal(s: string): Option<int> {
    if |s| > 0 && (s[0] == '-' || s[0] == '+') then
      match ParseUnsigned(s[1..])
      case None => None
      case Some(m) =>
        var v: int := if s[0] == '-' then -(m as int) else m;
        Some(v)
    else
      match ParseUnsigned(s)
      case None => None
      case Some(m) => Some(m)
  }

  /** Every integer survives rendering and parsing back. */
  lemma ParseIntToString(i: int)
    ensures ParseDecimal(IntToString(i)) == Some(i)
  {
    var n: nat := if i < 0 then -i else i;
    var d := NatToString(n);
    NatToStringValue(n);
    assert DigitRunLength(d) == |d| by { DigitRunOfDigits(d); }
    assert d[..|d|] == d;
    if i < 0 {
      assert IntToString(i)[1..] == d;
    }
  }

  lemma {:induction false} DigitRunOfDigits(s: string)
    requires AllDigits(s)
    ensures DigitRunLength(s) == |s|
    decreases |s|
  {
    if |s| > 0 {
      DigitRunOfDigits(s[1..]);
    }
  }

  /** Python's `s.split(sep)` for a one-character separator: always at least one part. */
  function Split(s: string, sep: char): (parts: seq<string>)
    ensures |parts| >= 1
    decreases |s|
  {
    if |s| == 0 then [""]
    else
      var rest := Split(s[1..], sep);
      if s[0] == sep then [""] + rest
      else [[s[0]] + rest[0]] + rest[1..]
  }

  /** Python's `sep.join(parts)` (and JavaScript's `parts.join(sep)`). */
  function Join(parts: seq<string>, sep: char): string
    decreases |parts|
  {
    if |parts| == 0 then ""
    else if |parts| == 1 then parts[0]
    else parts[0] + [sep] + Join(parts[1..], sep)
  }

  predicate Free(s: string, sep: char) {
    forall k :: 0 <= k < |s| ==> s[k] != sep
  }

  /** A string without the separator splits into itself. */
  lemma {:induction false} SplitFree(a: string, sep: char)
    requires Free(a, sep)
    ensures Split(a, sep) == [a]
    decreases |a|
  {
    if |a| > 0 {
      SplitFree(a[1..], sep);
      assert [a[0]] + a[1..] == a;
    }
  }

  /** Splitting at the first separator peels off the text before it. */
  lemma {:induction false} SplitAtFirst(a: string, sep: char, b: string)
    requires Free(a, sep)
    ensures Split(a + [sep] + b, sep) == [a] + Split(b, sep)
    decreases |a|
  {
    var s := a + [sep] + b;
    if |a| == 0 {
      assert s[0] == sep && s[1..] == b;
    } else {
      assert s[1..] == a[1..] + [sep] + b;
      SplitAtFirst(a[1..], sep, b);
      assert [a[0]] + a[1..] == a;
    }
  }

  /** `Split` inverts `Join` when no part holds the separator. */
  lemma {:induction false} SplitJoin(parts: seq<string>, sep: char)
    requires |parts| >= 1
    requires forall i :: 0 <= i < |parts| ==> Free(parts[i], sep)
    ensures Split(Join(parts, sep), sep) == parts
    decreases |parts|
  {
    if |parts| == 1 {
      SplitFree(parts[0], sep);
    } else {
      SplitJoin(parts[1..], sep);
      SplitAtFirst(parts[0], sep, Join(parts[1..], sep));
      assert parts == [parts[0]] + parts[1..];
    }
  }

  /** JavaScript's `s.startsWith(prefix)`. */
  predicate StartsWith(s: string, prefix: string) {
    prefix <= s
  }

  /** JavaScript's `haystack.includes(needle)`: `needle` occurs at some position. */
  predicate Contains(haystack: string, needle: string)
    decreases |haystack|
  {
    needle <= haystack || (|haystack| > 0 && Contains(haystack[1..], needle))
  }

  /** `needle` sits at position `i` of `haystack`. */
  ghost predicate OccursAt(haystack: string, needle: string, i: int) {
    0 <= i <= |haystack| - |needle| && haystack[i..i + |needle|] == needle
  }

  /** Dropping the first character shifts every occurrence one place left. */
  lemma OccursAtTail(haystack: string, needle: string, i: int)
    requires |haystack| > 0 && 0 <= i
    ensures OccursAt(haystack[1..], needle, i) <==> OccursAt(haystack, needle, i + 1)
  {
    if 0 <= i <= |haystack| - 1 - |needle| {
      assert haystack[1..][i..i + |needle|] == haystack[i + 1..i + 1 + |needle|];
    }
  }

  /** `Contains` is exactly "the needle sits at some position". */
  lemma {:induction false} ContainsAt(haystack: string, needle: string)
    ensures Contains(haystack, needle) <==> exists i :: OccursAt(haystack, needle, i)
    decreases |haystack|
  {
    if needle <= haystack {
      assert OccursAt(haystack, needle, 0);
    } else if |haystack| > 0 {
      ContainsAt(haystack[1..], needle);
      forall i | OccursAt(haystack[1..], needle, i) ensures OccursAt(haystack, needle, i + 1) {
        OccursAtTail(haystack, needle, i);
      }
      forall i | OccursAt(haystack, needle, i) ensures OccursAt(haystack[1..], needle, i - 1) {
        assert OccursAt(haystack, needle, 0) ==> needle <= haystack;
        assert 1 <= i;
        OccursAtTail(haystack, needle, i - 1);
      }
    }
  }

  /** ASCII case folding of one character; everything outside `A`..`Z` is left alone. */
  function LowerChar(c: char): char {
    if 'A' <= c <= 'Z' then ((c as int) + 32) as char else c
  }

  /** JavaScript's `toLowerCase`, restricted to ASCII letters. */
  function Lower(s: string): (r: string)
    ensures |r| == |s|
    ensures forall i :: 0 <= i < |s| ==> r[i] == LowerChar(s[i])
  {
    seq(|s|, i requires 0 <= i < |s| => LowerChar(s[i]))
  }

  /** Lower-casing twice is lower-casing once. */
  lemma LowerIdempotent(s: string)
    ensures Lower(Lower(s)) == Lower(s)
  {
  }

  /** The characters JavaScript's `trim` removes: WhiteSpace and LineTerminator code points. */
  predicate IsJsWhitespace(c: char) {
    var n := c as int;
    n == 0x09 || n == 0x0A || n == 0x0B || n == 0x0C || n == 0x0D || n == 0x20 ||
    n == 0xA0 || n == 0x1680 || (0x2000 <= n <= 0x200A) || n == 0x2028 ||
    n == 0x2029 || n == 0x202F || n == 0x205F || n == 0x3000 || n == 0xFEFF
  }

  function TrimStart(s: string): (r: string)
    ensures |r| <= |s|
    ensures r == s[|s| - |r|..]
    ensures |r| > 0 ==> !IsJsWhitespace(r[0])
    decreases |s|
  {
    if |s| > 0 && IsJsWhitespace(s[0]) then TrimStart(s[1..]) else s
  }

  function TrimEnd(s: string): (r: string)
    ensures r <= s
    decreases |s|
  {
    if |s| > 0 && IsJsWhitespace(s[|s| - 1]) then TrimEnd(s[..|s| - 1]) else s
  }

  /** JavaScript's `s.trim()`. */
  function Trim(s: string): string {
    TrimEnd(TrimStart(s))
  }

  /** Every character is whitespace. */
  predicate IsBlank(s: string) {
    forall i :: 0 <= i < |s| ==> IsJsWhitespace(s[i])
  }

  /** `s.trim()` is empty (falsy) exactly when `s` is all whitespace. */
  lemma TrimEmptyIffBlank(s: string)
    ensures Trim(s) == "" <==> IsBlank(s)
  {
    TrimStartEmptyIffBlank(s);
    var t := TrimStart(s);
    if |t| > 0 {
      TrimEndKeepsHead(t);
    }
  }

  lemma {:induction false} TrimStartEmptyIffBlank(s: string)
    ensures TrimStart(s) == "" <==> IsBlank(s)
    decreases |s|
  {
    if |s| > 0 && IsJsWhitespace(s[0]) {
      TrimStartEmptyIffBlank(s[1..]);
      assert TrimStart(s) == TrimStart(s[1..]);
      assert IsBlank(s) <==> IsBlank(s[1..]) by {
        assert forall i :: 0 <= i < |s[1..]| ==> s[1..][i] == s[i + 1];
        assert forall i :: 1 <= i < |s| ==> s[i] == s[1..][i - 1];
      }
    } else if |s| > 0 {
      assert TrimStart(s) == s;
      assert !IsJsWhitespace(s[0]);
    }
  }

  /** A string that starts with a non-blank character keeps it when trimmed at the end. */
  lemma {:induction false} TrimEndKeepsHead(s: string)
    requires |s| > 0 && !IsJsWhitespace(s[0])
    ensures |TrimEnd(s)| > 0
    decreases |s|
  {
    if |s| > 1 && IsJsWhitespace(s[|s| - 1]) {
      TrimEndKeepsHead(s[..|s| - 1]);
    }
  }
}

=== FILE: user_models.dfy ===
/**
 * The user record of the backend (`CustomUser`): profile fields, the face
 * encoding with its extraction status, and the face-sharing preference
 * that decides whether the user's face is blurred in other people's photos.
 */
module UserModels {
  import opened Wrappers
  import Seqs

  type UserId = nat

  /** A face embedding as stored in the JSON column; the numeric values are not interpreted by the model. */
  type Encoding = seq<int>

  /** The four `encoding_status` choices. */
  datatype EncodingStatus = Pending | Success | NoFace | Error

  /** The two `face_sharing_mode` choices. */
  datatype FaceSharingMode = RequireConsent | Public

  datatype User = User(
    id: UserId,
    username: string,
    firstName: string,
    lastName: string,
    bio: string,
    profilePic: Option<string>,  // the stored file name; `None` for a null column
    faceEncoding: Option<Encoding>,
    encodingStatus: EncodingStatus,
    faceSharingMode: FaceSharingMode,
    isStaff: bool
  )

  /** A user as first saved: every optional field empty and the model defaults in place. */
  function NewUser(id: UserId, username: string): (u: User)
    ensures u.id == id && u.username == username
    ensures u.encodingStatus == Pending && u.faceSharingMode == RequireConsent
    ensures !HasValidFaceEncoding(u) && !HasProfilePic(u) && !u.isStaff
  {
    User(id, username, "", "", "", None, None, Pending, RequireConsent, false)
  }

  /** `has_valid_face_encoding`: the extraction succeeded and an encoding is stored. */
  predicate HasValidFaceEncoding(u: User) {
    u.encodingStatus == Success && u.faceEncoding.Some?
  }

  /** Django's truthiness of an image field: a non-empty file name. */
  predicate HasProfilePic(u: User) {
    u.profilePic.Some? && u.profilePic.value != ""
  }

  /** Primary keys are unique in the user table. */
  ghost predicate UniqueIds(users: seq<User>) {
    forall i, j :: 0 <= i < j < |users| ==> users[i].id != users[j].id
  }

  /** A queryset over a table with unique keys has unique keys. */
  lemma {:induction false} FilterKeepsUniqueIds(users: seq<User>, p: User -> bool)
    requires UniqueIds(users)
    ensures UniqueIds(Seqs.Filter(users, p))
    decreases |users|
  {
    if |users| > 0 {
      FilterKeepsUniqueIds(users[1..], p);
      var rest := Seqs.Filter(users[1..], p);
      forall k | 0 <= k < |rest|
        ensures users[0].id != rest[k].id
      {
        assert rest[k] in users[1..];
        var m :| 0 <= m < |users[1..]| && users[1..][m] == rest[k];
        assert users[m + 1] == rest[k];
      }
    }
  }

  /** `CustomUser.objects.get(pk=id)`, with `None` for `DoesNotExist`. */
  function Lookup(users: seq<User>, id: UserId): (r: Option<User>)
    ensures r.Some? ==> r.value in users && r.value.id == id
    ensures r.None? <==> forall i :: 0 <= i < |users| ==> users[i].id != id
  {
    Seqs.Find(users, HasUserId(id))
  }

  /** The lookup key of a user. */
  function HasUserId(id: UserId): User -> bool {
    (u: User) => u.id == id
  }
}

=== FILE: user_views.dfy ===
/**
 * The two user endpoints of backend/users/views.py that are not about
 * following: the profile page's data and the per-user encoding recompute.
 * The follow endpoints are in `Follows`.
 */
module UserViews {
  import opened Wrappers
  import opened UserModels
  import opened PhotoModels
  import opened FaceEncoding
  import Seqs

  /** `CustomUser.objects.get(username=username)`, `None` for `DoesNotExist`. */
  function FindByUsername(users: seq<User>, username: string): (r: Option<User>)
    ensures r.Some? ==> r.value in users && r.value.username == username
    ensures r.None? <==> forall i :: 0 <= i < |users| ==> users[i].username != username
  {
    Seqs.Find(users, (u: User) => u.username == username)
  }

  function UploadedBy(id: UserId): Photo -> bool {
    (p: Photo) => p.uploader == id
  }

  datatype Profile = Profile(user: User, photos: seq<Photo>)

  /** `profile`: 404 for an unknown username, else the user and their photos, newest first. */
  function GetProfile(users: seq<User>, photos: seq<Photo>, username: string): (r: (int, Option<Profile>))
    ensures r.0 == 404 <==> forall i :: 0 <= i < |users| ==> users[i].username != username
    ensures r.0 == 404 <==> r.1.None?
    ensures r.0 == 404 || r.0 == 200
    ensures r.1.Some? ==> r.1.value.user in users && r.1.value.user.username == username
    // exactly the user's own uploads: nobody else's, and none missing
    ensures r.1.Some? ==> forall p :: p in r.1.value.photos <==> p in photos && p.uploader == r.1.value.user.id
    ensures r.1.Some? ==> Seqs.SortedDesc(r.1.value.photos, PhotoCreatedAt)
    // each upload exactly as often as it is stored
    ensures r.1.Some? ==> multiset(r.1.value.photos) == multiset(Seqs.Filter(photos, UploadedBy(r.1.value.user.id)))
  {
    match FindByUsername(users, username)
    case None => (404, None)
    case Some(user) =>
      var own := Seqs.Filter(photos, UploadedBy(user.id));
      var sorted := Seqs.SortDesc(own, PhotoCreatedAt);
      assert forall p :: p in sorted <==> p in own by {
        forall p ensures p in sorted <==> p in own {
          Seqs.SortDescMembers(own, PhotoCreatedAt, p);
        }
      }
      (200, Some(Profile(user, sorted)))
  }

  /** Replaces every row of user `u.id` with `u`. */
  function SaveUser(users: seq<User>, u: User): (r: seq<User>)
    ensures |r| == |users|
    ensures forall i :: 0 <= i < |users| ==> r[i] == if users[i].id == u.id then u else users[i]
  {
    seq(|users|, i requires 0 <= i < |users| => if users[i].id == u.id then u else users[i])
  }

  /**
   * Saving a user is seen through the table's lookup: the saved user is
   * found under its id when a row with that id existed, a table without
   * such a row is left as it was, and every other id finds what it found
   * before.
   */
  lemma SaveUserLookup(users: seq<User>, u: User, id: UserId)
    ensures id != u.id ==> Lookup(SaveUser(users, u), id) == Lookup(users, id)
    ensures Lookup(users, u.id).Some? ==> Lookup(SaveUser(users, u), u.id) == Some(u)
    ensures Lookup(users, u.id).None? ==> SaveUser(users, u) == users
  {
    var r := SaveUser(users, u);
    var i := Seqs.FindSameKeys(users, r, HasUserId(id));
    var j := Seqs.FindSameKeys(users, r, HasUserId(u.id));
  }

  /**
   * `recompute_encoding`: 404 for an unknown user; 403 unless the requester
   * is that user or staff; otherwise the extraction runs and its outcome
   * decides 200 or 400. `probe` is what the detector sees in the target's
   * profile picture.
   */
  function RecomputeEncoding(users: seq<User>, requester: User, target: UserId, probe: ImageProbe): (r: (int, seq<User>))
    ensures Lookup(users, target).None? ==> r == (404, users)
    ensures Lookup(users, target).Some? && requester.id != target && !requester.isStaff ==> r == (403, users)
    ensures r.0 == 403 ==> r.1 == users
    ensures r.0 in {200, 400, 403, 404}
    // the extraction runs exactly for the user themself or staff
    ensures (r.0 == 200 || r.0 == 400) <==> Lookup(users, target).Some? && (requester.id == target || requester.isStaff)
    ensures r.0 == 200 || r.0 == 400 ==>
              var after := ExtractFaceEncoding(Lookup(users, target).value, probe).user;
              && r.1 == SaveUser(users, after)
              && (r.0 == 200 <==> HasValidFaceEncoding(after))
  {
    match Lookup(users, target)
    case None => (404, users)
    case Some(user) =>
      if requester.id != user.id && !requester.isStaff then (403, users)
      else
        var e := ExtractFaceEncoding(user, probe);
        (if e.ok then 200 else 400, SaveUser(users, e.user))
  }

  /** Recomputing touches only the target's row, and only its encoding fields. */
  lemma RecomputeTouchesOnlyTarget(users: seq<User>, requester: User, target: UserId, probe: ImageProbe, i: nat)
    requires UniqueIds(users)
    requires i < |users|
    ensures |RecomputeEncoding(users, requester, target, probe).1| == |users|
    ensures users[i].id != target ==> RecomputeEncoding(users, requester, target, probe).1[i] == users[i]
    ensures var u := RecomputeEncoding(users, requester, target, probe).1[i];
            u == users[i].(encodingStatus := u.encodingStatus, faceEncoding := u.faceEncoding)
  {
    var r := RecomputeEncoding(users, requester, target, probe);
    if Lookup(users, target).Some? && r.1 != users && users[i].id == target {
      var user := Lookup(users, target).value;
      var j :| 0 <= j < |users| && users[j] == user;
      assert j == i;
    }
  }
}

=== FILE: wrappers.dfy ===
/** Optional values, standing in for Python's `None` and JavaScript's `null`/`undefined`. */
module Wrappers {

  datatype Option<+T> = None | Some(value: T) {

    /** The wrapped value, or `default` when there is none. */
    function GetOr(default: T): T {
      match this
      case Some(v) => v
      case None => default
    }
  }
}
